=== FILE: README.md ===
# Counter app printing bridge — a Dafny model

This project models the printing path of a React Native point-of-sale app.
A web page running inside a WebView posts a print request. The app keeps
that request, compiles it into ESC/POS bytes (or a TSPL text script for the
label printer), encodes the bytes as Base64 and hands them to a Kotlin
native module. The module owns one Bluetooth RFCOMM socket and writes the
decoded bytes to the printer.

The model has one Dafny module per part of the system:

- `JsString` (js_string.dfy): the JavaScript string semantics the formatter
  relies on. Strings are sequences of UTF-16 code units. It covers
  truthiness, `String(v)`, `substring`, `padStart`/`padEnd`, `repeat`,
  `startsWith`, first-occurrence `replace` and `filter(Boolean).join`.
- `Base64` (base64.dfy): `customBtoa` and `byteArrayToBase64`, including
  the Latin-1 error path. It also has a strict RFC 4648 (section 4)
  decoder, which stands in for Android's `Base64.decode`, and the
  round-trip proof.
- `PrinterService` (printer_service.dfy): the command constants, the
  command builder, the invoice, the kitchen order ticket (KOT), the barcode
  tag, the TSPL label and the `formatDataForPrinter` dispatcher.
  `PrinterProperties` (printer_properties.dfy) proves the layout and
  byte-range facts about them.
- `BluetoothModule` (bluetooth_module.dfy): the native module's state
  (socket, output stream, connected address, receiver registration, the
  last-printer preferences and the bytes written so far). It also has the
  connect / send / print / disconnect / scan / pair calls and the
  broadcast receiver. Android calls whose outcome the module cannot decide
  are parameters, e.g. whether a socket opens or a write throws.
  `ConnectionProperties` (bluetooth_properties.dfy) relates calls to each
  other.
- `App` (app.dfy): the component state of App.js, covering the
  `DeviceFound` reducer, the WebView message handler, connect and
  disconnect, the `handlePrint` guard chain and the device lists.
  `AppProperties` (app_properties.dfy) proves properties of the whole path,
  from a print request to the bytes written on the printer stream.

## Model

| member | source | states |
|---|---|---|
| JsString.Lit | utils/PrinterService.js:95-97 | a literal becomes its code units one for one, so literal lengths and characters are known to the proofs |
| JsString.Substring | utils/PrinterService.js:116 | `substring` never lengthens the string, and for ordered non-negative bounds it is the slice clamped to the length |
| JsString.SubstringSymmetric | utils/PrinterService.js:198 | `substring` swaps reversed bounds, so the order of the two arguments does not matter |
| JsString.SubstringPrefix | utils/PrinterService.js:116 | `substring(0, n)` keeps the first min(n, length) units and leaves a short string unchanged |
| JsString.Repeat | utils/PrinterService.js:95 | `"-".repeat(32)` has length the piece length times the count |
| JsString.RepeatAt | utils/PrinterService.js:95 | unit i of copy j of the repeated text is unit i of the piece, so the text is the piece over and over |
| JsString.RepeatAppend | utils/PrinterService.js:95 | repeating m + n times is repeating m times followed by repeating n times |
| JsString.PadEnd | utils/PrinterService.js:116 | `padEnd` gives at least the target width, keeps the string as the prefix and fills only after it |
| JsString.PadStart | utils/PrinterService.js:117-118 | `padStart` gives at least the target width, keeps the string as the suffix and fills only before it |
| JsString.IndexFrom | App.js:155 | `indexOf` returns the first occurrence at or after the start, or -1 exactly when there is none |
| JsString.ReplacePrefix | App.js:154-155 | replacing the first `PRINT_` in a string that starts with it removes exactly that prefix |
| JsString.NatToStr | utils/PrinterService.js:117 | a quantity prints as decimal digits without leading zeros |
| JsString.NatToStrRoundTrip | utils/PrinterService.js:117 | reading the printed digits back gives the number, so distinct quantities print differently |
| JsString.NatToStrDigits | utils/PrinterService.js:117 | a number below 10^k prints with at most k digits |
| JsString.IntToStr | utils/PrinterService.js:117 | a whole number below 10^21 in magnitude prints as 1 to 22 units, with a leading minus exactly when it is negative |
| JsString.ToStr | utils/PrinterService.js:170 | template interpolation keeps a string as is and renders every other value as a non-empty text |
| JsString.TruthyRendersNonEmpty | utils/PrinterService.js:104 | a truthy field never interpolates to an empty text |
| JsString.FilterTruthy | utils/PrinterService.js:197 | every kept value is a truthy input value, and no truthy input value is dropped |
| JsString.FilterTruthyOne | utils/PrinterService.js:197 | one value is kept exactly when it is truthy |
| JsString.FilterTruthyAppend | utils/PrinterService.js:197 | filtering a concatenation filters each part and keeps their order, so together with the one-value case the filter keeps order and repeats |
| JsString.JoinTruthyEmpty | utils/PrinterService.js:197-198 | the joined header is empty exactly when no part is truthy, which is when the header line is skipped |
| JsString.JoinTwo | utils/PrinterService.js:197 | brand and category join with the separator when both are present, and either alone appears without it |
| Base64.Symbol | utils/Base64.js:1 | every index below 64 names an alphabet character different from the `=` pad |
| Base64.SymbolIsCharsTable | utils/Base64.js:1 | the 65-character table is the 64 symbols followed by `=` |
| Base64.SymbolIndex | utils/Base64.js:1 | looking a character up in the alphabet returns the index that produces it |
| Base64.SymbolIndexOfSymbol | utils/Base64.js:1 | the alphabet lookup inverts the symbol table |
| Base64.Encode | utils/Base64.js:7-15 | output length is 4·⌈n/3⌉, all symbols except the trailing padding, with one `=` for two leftover bytes and two for one |
| Base64.Latin1Bytes | utils/Base64.js:10-14 | a Latin-1 string is its code units taken as bytes |
| Base64.CustomBtoa | utils/Base64.js:3-18 | `customBtoa` throws exactly when some unit is above 0xFF, and otherwise its output decodes back to the input's bytes |
| Base64.BinaryString | utils/Base64.js:26-30 | the binary string has one unit per array element, each the element taken modulo 65536 as `fromCharCode` does |
| Base64.AsBytes | utils/Base64.js:25-32 | an array whose elements are all bytes is, element for element, a byte sequence |
| Base64.ByteArrayToBase64 | utils/Base64.js:25-32 | fails exactly when an element modulo 65536 exceeds 0xFF; a byte array always succeeds and decodes back to itself; the text length is 4·⌈n/3⌉ |
| Base64.EmptyArrayEncodesEmpty | utils/Base64.js:25-32 | an empty command array encodes to the empty text |
| Base64.Decode | android/app/src/main/java/com/counterapp/BluetoothModule.kt:543 | a text decodes only when it is whole groups of four, and gives three bytes per group except one or two for a padded last group |
| Base64.PadBitsZero | utils/Base64.js:7-15 | in every encoding the last data character before the padding carries only the high bits of the last byte: its unused low bits are zero, as section 3.5 of RFC 4648 requires, so the canonical text is pinned |
| Base64.RoundTrip | utils/Base64.js:3-18 | decoding the encoding of any byte sequence returns it |
| Base64.EncodeInjective | utils/Base64.js:3-18 | different byte sequences never share an encoding |
| PrinterService.Framed | utils/PrinterService.js:75-78 | a document starts with its opening commands, ends with its closing commands and carries its body unchanged between them |
| PrinterService.StringToBytes | utils/PrinterService.js:23-32 | one byte per code unit: Latin-1 units pass through and anything above 0xFF becomes `?` |
| PrinterService.ValueToBytes | utils/PrinterService.js:23-32 | a string is converted unit by unit and a boolean or number, which has no `length`, contributes no bytes; `null` and `undefined` are excluded because reading their `length` throws |
| PrinterService.ValueLine | utils/PrinterService.js:59-63 | a text line is the text's bytes followed by a single LF |
| PrinterService.StrLine | utils/PrinterService.js:59-63 | a literal line is its bytes followed by a single LF |
| PrinterService.Invoice | utils/PrinterService.js:75-139 | an invoice starts with INIT and centre alignment and ends with a three-line feed and a cut |
| PrinterService.Kot | utils/PrinterService.js:141-189 | a kitchen ticket starts with INIT and centre alignment and ends with a three-line feed and a cut |
| PrinterService.BarcodeTag | utils/PrinterService.js:191-240 | a barcode tag starts with INIT and centre alignment and ends with a three-line feed, with no cut |
| PrinterService.TsplLines | utils/PrinterService.js:248-270 | the label script is eight commands, from SIZE to PRINT |
| PrinterService.CrlfJoin | utils/PrinterService.js:248-270 | the joined script starts with the first command and CR LF and ends with the last command and CR LF |
| PrinterService.TsplScript | utils/PrinterService.js:242-270 | the script opens with the SIZE command and closes with `PRINT 1` |
| PrinterService.Tspl | utils/PrinterService.js:272 | the label bytes are one per script unit and never empty |
| PrinterService.FormatDataForPrinter | utils/PrinterService.js:277-291 | the result is empty exactly for an unknown type; each of the four known types yields its own document |
| PrinterProperties.AddRegroups | utils/PrinterService.js:45-52 | adding two arrays one after the other pushes the same values as adding their concatenation once |
| PrinterProperties.AddOneIsAdd | utils/PrinterService.js:45-52 | `add` of a single number pushes what `add` of the one-element array pushes |
| PrinterProperties.NewLineIsAddLf | utils/PrinterService.js:65-68 | `newLine()` pushes what `add(LF)` pushes |
| PrinterProperties.TextLineIsTextThenNewLine | utils/PrinterService.js:54-63 | `textLine(v)` is `text(v)` followed by `newLine()`, and appends exactly the converted value and one LF |
| PrinterProperties.TextLineOfString | utils/PrinterService.js:54-63 | `textLine` of a string appends exactly the literal-line segment of that string |
| PrinterProperties.BuildIsConcat | utils/PrinterService.js:40-73 | a fresh builder that is handed segments one `add` at a time returns their concatenation from `getData` |
| PrinterProperties.BuildFramed | utils/PrinterService.js:40-73 | a builder fed opening commands, body segments and closing commands holds the framed document |
| PrinterProperties.InvoiceIsBuilt | utils/PrinterService.js:75-139 | the invoice is exactly a builder fed INIT, ALIGN_CENTER, the invoice segments in call order, FEED_LINES(3) and CUT |
| PrinterProperties.KotIsBuilt | utils/PrinterService.js:141-189 | the kitchen ticket is exactly a builder fed INIT, ALIGN_CENTER, its segments in call order, FEED_LINES(3) and CUT |
| PrinterProperties.BarcodeTagIsBuilt | utils/PrinterService.js:191-240 | the barcode tag is exactly a builder fed INIT, ALIGN_CENTER, its segments in call order and FEED_LINES(3) |
| PrinterProperties.StringToBytesLatin1 | utils/PrinterService.js:23-32 | Latin-1 text reaches the printer unchanged |
| PrinterProperties.StringToBytesLossy | utils/PrinterService.js:28 | text with a unit above 0xFF does not survive the conversion |
| PrinterProperties.StringToBytesConcat | utils/PrinterService.js:23-32 | converting a concatenation is concatenating the conversions |
| PrinterProperties.InvoiceItemsAppend | utils/PrinterService.js:114-124 | the item block of a list is the blocks of its parts, one item after another |
| PrinterProperties.KotItemsAppend | utils/PrinterService.js:167-176 | the kitchen item block of a list is the blocks of its parts, one item after another |
| PrinterProperties.InvoiceShowsItems | utils/PrinterService.js:114-124 | an invoice with items prints their whole item block, contiguous and in order |
| PrinterProperties.InvoiceShowsItem | utils/PrinterService.js:114-124 | every item of the list, at any position, has all its bytes printed in the invoice |
| PrinterProperties.InvoiceShowsEachRow | utils/PrinterService.js:115-119 | every item of the list, at any position, gets its row line in the invoice |
| PrinterProperties.InvoiceItemLayout | utils/PrinterService.js:115-122 | an invoice item is its row line followed by `  ${details}` when the details are truthy, and the row line alone otherwise |
| PrinterProperties.InvoiceShowsDetails | utils/PrinterService.js:119-122 | an item with truthy details has its details line printed directly under its row |
| PrinterProperties.InvoiceShowsTotal | utils/PrinterService.js:129 | an invoice prints the `TOTAL:` line of the summary total, or of 0 when the total is falsy |
| PrinterProperties.KotShowsItems | utils/PrinterService.js:167-176 | a kitchen ticket with items prints their whole item block, contiguous and in order |
| PrinterProperties.KotShowsItem | utils/PrinterService.js:167-176 | every item of the list, at any position, has all its bytes printed on the kitchen ticket |
| PrinterProperties.KotShowsEachItem | utils/PrinterService.js:168-171 | every item gets its `quantity x name` line on the kitchen ticket |
| PrinterProperties.KotItemLayout | utils/PrinterService.js:169-174 | a kitchen item is its bold `quantity x name` line followed by `   Details: ${details}` when the details are truthy, and the bold line alone otherwise |
| PrinterProperties.KotShowsDetails | utils/PrinterService.js:169-174 | an item with truthy details has its details line printed directly after its bold line |
| PrinterProperties.KotShowsNotes | utils/PrinterService.js:178-184 | truthy special notes are printed after the closing rule, under a bold `NOTES:` heading |
| PrinterProperties.ItemColumnsWidth | utils/PrinterService.js:116-119 | an item row is 31 columns wide when the quantity fits 3 and the total fits 10, and grows by exactly their overflow otherwise |
| PrinterProperties.ItemColumnsName | utils/PrinterService.js:116 | the row starts with at most 16 units of the name, padded with spaces up to column 16 |
| PrinterProperties.ItemColumnsQuantity | utils/PrinterService.js:117 | the quantity sits right-aligned after the name column and one space |
| PrinterProperties.ItemColumnsTotal | utils/PrinterService.js:118-119 | the total ends the row, right-aligned in a field of at least 10 |
| PrinterProperties.ItemRowLayout | utils/PrinterService.js:115-119 | an item row is 31 wide for short quantities and totals, and begins with the truncated product name |
| PrinterProperties.BarcodeDataPlacement | utils/PrinterService.js:221-226 | a truthy SKU appears as `GS k 73 n` followed by exactly its n converted bytes |
| PrinterProperties.TagLayoutLengthByte | utils/PrinterService.js:221-226 | the fourth byte of the barcode command is the data length as is, whatever its size |
| PrinterProperties.BarcodeAllBytes | utils/PrinterService.js:225 | every value in the tag is a byte exactly when the SKU has at most 255 bytes, because the length is pushed unchecked |
| PrinterProperties.BarcodeWithoutSku | utils/PrinterService.js:210 | without a truthy SKU there is no barcode block, and the tag is the other blocks and 8 framing bytes |
| PrinterProperties.BarcodeHeaderShown | utils/PrinterService.js:197-198 | the header line is printed exactly when brand or category is truthy, and is at most 32 units wide |
| PrinterProperties.KotItemsIgnorePrices | utils/PrinterService.js:167-176 | two item lists with the same names, quantities and details give the same kitchen item block |
| PrinterProperties.KotIgnoresPrices | utils/PrinterService.js:141-189 | a kitchen ticket does not depend on prices, totals or the currency formatter |
| PrinterProperties.TsplDefaultSize | utils/PrinterService.js:245-248 | without a label size the label is 35 mm by 18 mm |
| PrinterProperties.CrlfJoinOne | utils/PrinterService.js:248-270 | a single command becomes that command followed by CR LF |
| PrinterProperties.CrlfJoinAppend | utils/PrinterService.js:248-270 | joining two runs of commands is joining each and concatenating them, in order |
| PrinterProperties.CrlfJoinShowsLine | utils/PrinterService.js:248-270 | every command, followed by CR LF, occurs as a block of the joined script |
| PrinterProperties.TsplShowsLines | utils/PrinterService.js:248-272 | each of the eight label commands, CR LF included, occurs in the TSPL script |
| PrinterProperties.TsplTopText | utils/PrinterService.js:253-262 | the top text is at most 25 units and empty exactly when brand, category and model are all falsy |
| PrinterProperties.FormatAllBytes | utils/PrinterService.js:277-291 | every command array is byte-valued except a barcode tag whose SKU is longer than 255 bytes |
| BluetoothModule.Initial | android/app/src/main/java/com/counterapp/BluetoothModule.kt:27-30 | a fresh module has no socket, stream or address and keeps the stored preferences |
| BluetoothModule.CloseSocket | android/app/src/main/java/com/counterapp/BluetoothModule.kt:259-263 | closing keeps the socket reference but leaves it unconnected, and changes nothing else |
| BluetoothModule.Connect | android/app/src/main/java/com/counterapp/BluetoothModule.kt:231-297 | checks run in source order; PERMISSION_DENIED leaves the state untouched; past the checks a running discovery is cancelled exactly when the scan permission is held; success leaves a connected socket, its stream and the address; an I/O failure clears the address and socket but keeps the old stream; a throwing lookup clears only the address; preferences are never touched; at most two sockets are tried |
| BluetoothModule.Fallback | android/app/src/main/java/com/counterapp/BluetoothModule.kt:269-280 | the fallback is always the second socket attempt |
| BluetoothModule.TrySockets | android/app/src/main/java/com/counterapp/BluetoothModule.kt:265-297 | a socket that opens connects the module to the address through its stream; a failure forgets the address and keeps the old stream, and an I/O failure leaves no connected socket; the fallback is tried exactly when the secure attempt throws an I/O error |
| BluetoothModule.Disconnect | android/app/src/main/java/com/counterapp/BluetoothModule.kt:551-562 | a disconnect that does not throw drops socket and stream but keeps the connected address; a throwing one changes nothing |
| BluetoothModule.CodePointBytes | android/app/src/main/java/com/counterapp/BluetoothModule.kt:307 | a code point encodes to 1 to 4 UTF-8 bytes, an ASCII one to itself |
| BluetoothModule.Utf8 | android/app/src/main/java/com/counterapp/BluetoothModule.kt:307 | `toByteArray()` uses at most 3 bytes per unit, and ASCII text is its own encoding |
| BluetoothModule.SendData | android/app/src/main/java/com/counterapp/BluetoothModule.kt:299-312 | no stream means NOT_CONNECTED; with a stream it resolves exactly when the write succeeds, and then appends the UTF-8 bytes of the message |
| BluetoothModule.PrintRawData | android/app/src/main/java/com/counterapp/BluetoothModule.kt:535-549 | no stream means NOT_CONNECTED; otherwise it resolves exactly when the text decodes and the write succeeds, appending the decoded bytes, and every other failure is PRINT_ERROR |
| BluetoothModule.SaveLastPrinter | android/app/src/main/java/com/counterapp/BluetoothModule.kt:564-569 | saving stores both address and name and changes nothing else |
| BluetoothModule.GetLastPrinter | android/app/src/main/java/com/counterapp/BluetoothModule.kt:571-584 | null exactly when no address is stored, otherwise the stored address and name |
| BluetoothModule.ClearLastPrinter | android/app/src/main/java/com/counterapp/BluetoothModule.kt:586-591 | clearing removes both keys and changes nothing else |
| BluetoothModule.StartScan | android/app/src/main/java/com/counterapp/BluetoothModule.kt:165-210 | rejects in the order no adapter, disabled, no permission, each without side effects; past the checks it resolves exactly when registering, cancelling a running discovery and starting discovery all succeed; any throw there is SCAN_ERROR and keeps what was done before it (a failed register leaves no receiver, a failed cancel leaves discovery running, a failed start leaves none) |
| BluetoothModule.StopScan | android/app/src/main/java/com/counterapp/BluetoothModule.kt:212-229 | rejects STOP_SCAN_ERROR exactly when a running discovery is cancelled with the scan permission and the cancel throws, and then changes nothing; otherwise it resolves with the receiver unregistered and discovery stopped if it was cancelled |
| BluetoothModule.PairDevice | android/app/src/main/java/com/counterapp/BluetoothModule.kt:135-163 | `createBond` is called exactly for an unbonded device past the checks; each outcome is characterised exactly: a bonded device resolves "already paired", a started bond "pairing initiated", a refused bond is PAIRING_FAILED, and a throwing lookup or `createBond` is PAIRING_ERROR |
| BluetoothModule.DisplayName | android/app/src/main/java/com/counterapp/BluetoothModule.kt:127 | a missing device name is reported as "Unknown Device" |
| BluetoothModule.GetPairedDevices | android/app/src/main/java/com/counterapp/BluetoothModule.kt:111-133 | rejects without adapter or permission and resolves exactly when both are present; the list holds every bonded device, in order, with its address and `bonded` set |
| BluetoothModule.IsConnected | android/app/src/main/java/com/counterapp/BluetoothModule.kt:603-605 | true exactly when a socket is present and connected |
| BluetoothModule.GetConnectedDevice | android/app/src/main/java/com/counterapp/BluetoothModule.kt:607-622 | a device is reported exactly when the socket is connected, an address is recorded and the lookup succeeds |
| BluetoothModule.IsBluetoothEnabled | android/app/src/main/java/com/counterapp/BluetoothModule.kt:593-600 | true exactly when there is an adapter and it is enabled |
| BluetoothModule.OnReceive | android/app/src/main/java/com/counterapp/BluetoothModule.kt:35-89 | an unregistered receiver does nothing; only an ACL disconnect changes state, and it emits DeviceDisconnected and clears socket, stream and address exactly when the device address equals the connected one |
| ConnectionProperties.ConnectShortCut | android/app/src/main/java/com/counterapp/BluetoothModule.kt:238-241 | connecting to the already connected device changes nothing and opens no socket |
| ConnectionProperties.ConnectTwice | android/app/src/main/java/com/counterapp/BluetoothModule.kt:238-284 | a second connect right after a successful one takes the short cut |
| ConnectionProperties.FallbackOnlyAfterIoFailure | android/app/src/main/java/com/counterapp/BluetoothModule.kt:266-280 | two sockets are tried exactly when the secure attempt throws an I/O error, one when it does not |
| ConnectionProperties.SecureSocketFirst | android/app/src/main/java/com/counterapp/BluetoothModule.kt:266-284 | when the secure socket opens, the module is connected through that new socket to the requested address |
| ConnectionProperties.LookupThrowKeepsSocket | android/app/src/main/java/com/counterapp/BluetoothModule.kt:243-296 | a `getRemoteDevice` that throws while another device is connected rejects ERROR and forgets the address but keeps the connected socket and stream, so `isConnected` stays true while `getConnectedDevice` reports nothing |
| ConnectionProperties.FailedConnectKeepsStream | android/app/src/main/java/com/counterapp/BluetoothModule.kt:285-292 | after a failed connect the old stream remains, so `sendData` no longer reports NOT_CONNECTED |
| ConnectionProperties.ConnectLeavesPrefs | android/app/src/main/java/com/counterapp/BluetoothModule.kt:231-297 | `connect` never changes the last printer |
| ConnectionProperties.SendAfterDisconnect | android/app/src/main/java/com/counterapp/BluetoothModule.kt:551-562 | after a disconnect both send paths reject NOT_CONNECTED, and the stale address and the preferences remain |
| ConnectionProperties.AclDisconnectOnce | android/app/src/main/java/com/counterapp/BluetoothModule.kt:74-86 | an ACL disconnect of the connected device is reported once; a repeat finds no match and does nothing |
| ConnectionProperties.AclWithoutDevice | android/app/src/main/java/com/counterapp/BluetoothModule.kt:80 | with no connected address, an ACL broadcast without a device still matches |
| ConnectionProperties.SendAfterAclDisconnect | android/app/src/main/java/com/counterapp/BluetoothModule.kt:80-84 | after an ACL disconnect of the connected device, `sendData` rejects NOT_CONNECTED |
| ConnectionProperties.RawDataRoundTrip | android/app/src/main/java/com/counterapp/BluetoothModule.kt:542-545 | the Base64 of a byte sequence, sent through `printRawData`, appends exactly that sequence |
| ConnectionProperties.SaveThenGet | android/app/src/main/java/com/counterapp/BluetoothModule.kt:564-584 | reading after a save returns what was saved |
| ConnectionProperties.ClearThenGet | android/app/src/main/java/com/counterapp/BluetoothModule.kt:571-591 | reading after a clear returns null |
| ConnectionProperties.SaveOverwrites | android/app/src/main/java/com/counterapp/BluetoothModule.kt:564-569 | the later save wins |
| ConnectionProperties.PrefsSurviveConnection | android/app/src/main/java/com/counterapp/BluetoothModule.kt:231-297 | connect, disconnect and the receiver leave the preferences alone |
| ConnectionProperties.StartScanCheckOrder | android/app/src/main/java/com/counterapp/BluetoothModule.kt:165-187 | each precondition rejection happens exactly when the earlier checks pass and this one fails, and leaves the state unchanged |
| ConnectionProperties.PairBondedDevice | android/app/src/main/java/com/counterapp/BluetoothModule.kt:149-150 | a bonded device resolves "already paired" without `createBond` |
| ConnectionProperties.PairCheckOrder | android/app/src/main/java/com/counterapp/BluetoothModule.kt:136-147 | the adapter check comes first, a throwing lookup is PAIRING_ERROR, and a resolved pairing passed every check |
| ConnectionProperties.StopScanIdempotent | android/app/src/main/java/com/counterapp/BluetoothModule.kt:212-229 | after a `stopScan` that resolves, a second one resolves and changes nothing |
| ConnectionProperties.StartThenStop | android/app/src/main/java/com/counterapp/BluetoothModule.kt:165-229 | a started scan stopped with the scan permission ends unregistered and not discovering, or, when the cancel throws, still registered and discovering; the connection is untouched |
| ConnectionProperties.ConnectIsReported | android/app/src/main/java/com/counterapp/BluetoothModule.kt:603-622 | after `connect` resolves, `isConnected` is true and `getConnectedDevice` reports the requested address |
| ConnectionProperties.DisconnectIsReported | android/app/src/main/java/com/counterapp/BluetoothModule.kt:551-622 | after `disconnect` resolves, `isConnected` is false and no device is reported, although the address is kept |
| ConnectionProperties.AclDisconnectIsReported | android/app/src/main/java/com/counterapp/BluetoothModule.kt:74-86 | after an ACL disconnect of the connected device, `isConnected` is false and no device is reported |
| App.InitialApp | App.js:42-50 | the app starts with no connected device, no print data and an empty scan list |
| App.AddFound | App.js:98-103 | a device is appended exactly when its address is new, and the list keeps its addresses unique |
| App.StartScanning | App.js:171-180 | a scan empties the scanned list first; the flag stays set only when the native scan resolves |
| App.OnDeviceFound | App.js:98-103 | a found device touches only the scanned list |
| App.OnNativeEvent | App.js:98-103 | only DeviceFound changes the app; bond changes and DeviceDisconnected are ignored |
| App.OnDevicesFound | App.js:98-103 | a run of found devices touches only the scanned list |
| App.FetchPaired | App.js:140-147 | a resolved list replaces the paired devices; a rejection keeps the old list |
| App.Available | App.js:401 | the available section holds exactly the scanned devices whose address is not paired |
| AppProperties.AvailableOne | App.js:401 | a single scanned device is listed exactly when its address is not paired |
| AppProperties.AvailableAppend | App.js:401 | the filter keeps the scan order: the section for two scan batches is the first batch's section followed by the second's |
| App.HandleMessage | App.js:149-167 | a string type starting with `PRINT_` stores the rest of the type and the payload and opens the Bluetooth screen; any other message changes nothing |
| App.ConnectToDevice | App.js:189-199 | the device is recorded only when the native connect resolves, and a scan in progress is stopped first |
| App.DisconnectDevice | App.js:211-216 | the connected device is cleared only when the native disconnect resolves |
| App.HandlePrint | App.js:220-247 | stops first at no device, then at no data, then at an empty command array; it stops at encoding exactly when the non-empty commands have no Base64; what it sends is the successful Base64 of the non-empty commands |
| AppProperties.FoundKeepsUnique | App.js:98-103 | after any run of found devices the list has unique addresses, lists every reported address and holds nothing new |
| AppProperties.ScanListsEachAddressOnce | App.js:171-180 | a scan followed by found devices lists each reported address exactly once, and only reported devices |
| AppProperties.FoundIdempotent | App.js:98-103 | reporting a device twice is the same as reporting it once |
| AppProperties.AvailableSplitsScanned | App.js:252 | a scanned device is available exactly when its address is not paired, and an available row shows "Paired" only if it reports bonded |
| AppProperties.PrintRequestKeepsType | App.js:154-157 | a request of type `PRINT_`+t stores exactly t and the payload |
| AppProperties.PrintReachesPrinter | App.js:231-238 | with a device, data and a printable request, the printer stream receives exactly the formatted command bytes, after what it had |
| AppProperties.PrintSendsCommands | App.js:231-237 | for a printable request the commands are byte values and the Base64 text sent decodes back to them |
| AppProperties.PrintWriteFails | App.js:237-238 | for a printable request only the native write can fail, and then with PRINT_ERROR and no bytes written |
| AppProperties.UnknownTypeFormatFails | App.js:231-234 | an unknown print type stops at the empty-commands guard |
| AppProperties.LongSkuTagRefused | utils/Base64.js:25-32 | a barcode tag with a 256..65535-byte SKU is refused by the encoder |
| AppProperties.LongDataLayoutRefused | utils/PrinterService.js:225 | any tag whose barcode data is 256 to 65535 bytes long carries a length value the encoder refuses |
| AppProperties.LongSkuEncodeFails | App.js:237 | such a barcode request fails at encoding, so nothing is sent |
| AppProperties.ConnectRecordsDevice | App.js:193-194 | the app records the device only if the native connect resolved, and then the module is connected to that address |
| AppProperties.StopScanDropsScanning | App.js:182-191 | before connecting, the scanning flag stays up exactly when the native `stopScan` rejects because its cancel threw |
| AppProperties.StaleDeviceAfterAcl | App.js:98-107 | after an ACL disconnect the app still thinks it is connected, so it sends, and the module rejects NOT_CONNECTED |

## Left out

- Floating-point money formatting (`formatCurrency`) and `toLocaleString` of dates are parameters of type `JsValue -> Str` (`Formatters`). Their output is used but not modelled.
- The native `global.btoa` branch of `btoa` is not modelled, because `byteArrayToBase64` always calls `customBtoa`.
- Base64.Decode, BluetoothModule.PrintRawData: the decoder is strict RFC 4648 (section 4), with padding and no whitespace. Android's `Base64.decode(…, DEFAULT)` is lenient about whitespace and missing padding. Every text the app produces is strict, so the end-to-end lemmas are unaffected.
- The demo printouts `printTestReceipt`, `printInvoice` and `printKOT` in the Kotlin module are not modelled. They write fixed byte sequences and are not on the app's path.
- `isAnySysConnected` and `getSystemConnectedPairedDevices` are not modelled. They use reflection on hidden Android APIs and the app does not call them.
- The event emitter's active-catalyst check (`sendEvent`) is not modelled: events are always delivered.
- BluetoothModule.Connect: `getOutputStream` throwing after a successful `connect` is not modelled. Nor is a socket close that throws inside the failure handler; it is logged and ignored.
- BluetoothModule.Disconnect: a stream `close` that succeeds before the socket `close` throws is not modelled separately. Both count as one throwing disconnect that changes nothing.
- BluetoothModule.PairDevice: the reply text and the asynchronous bond broadcast that follows are not modelled; only the outcome code and whether `createBond` was called.
- PrinterService.ItemRow: `productName` is assumed to be a string. A non-string name makes `substring` throw in the source, and the formatter's exceptions are not modelled.
- PrinterService.Invoice, PrinterService.Kot, PrinterService.BarcodeTag: their own contracts state only the framing. What they print inside the frame is stated by the `Shows` and barcode lemmas in `PrinterProperties`. Header lines such as `Inv #:` and `Date:` have no lemma of their own.
- BluetoothModule.StopScan: `unregisterReceiver` is taken to throw nothing but the `IllegalArgumentException` for a receiver that is not registered, which `stopScan` swallows.
- App.HandleMessage: a non-object payload is treated as a document whose fields are all undefined, and a falsy payload as no data. The alert texts are not modelled.
- App.ConnectToDevice: the app's `pairDevice` handler is not modelled separately. It only stops a scan and calls the native `pairDevice`, which `BluetoothModule.PairDevice` models.
- React rendering, alerts, the WebView, pull-to-refresh, the splash screen, the back handler and runtime permission requests are not modelled.
- Concurrency is not modelled: promises are taken to settle one at a time, in call order.
- The barcode data is the SKU's bytes alone, with no Code 128 code-set prefix such as `{B` (`PrinterProperties.BarcodeDataPlacement`).
- The invoice has no discount or tax lines and the kitchen ticket no item count, because the compilers emit none.
- A successful native `connect` does not save the last printer (`ConnectionProperties.ConnectLeavesPrefs`); only `saveLastPrinter` does.
- A disconnect keeps the connected address and a failed connect keeps the old output stream (`ConnectionProperties.SendAfterDisconnect`, `ConnectionProperties.FailedConnectKeepsStream`).
- JsString.ToStr, JsString.IntToStr, JsString.NatToStr: numbers are whole and below 10^21 in magnitude (`JsInt`). Fractions, `NaN`, the infinities and the exponent form `String` uses from 10^21 on are not modelled, so a fractional quantity or label width cannot be written down.
- PrinterService.ValueToBytes: `null` and `undefined` are excluded by precondition, because `stringToBytes` throws on them when it reads `length`. Every call site tests the value for truthiness first, and the formatter's exceptions are not modelled.

=== FILE: app.dfy ===
/**
 * The orchestrator of App.js: the state the screen keeps, the reducers
 * that update it on device reports and WebView messages, the connect and
 * disconnect handlers, the print guard chain and the device lists the
 * Bluetooth screen shows.
 *
 * Native calls appear as the replies they settle with; rendering, alerts
 * and timers are not modelled.
 */
module App {
  import opened Wrappers
  import opened JsString
  import Base64
  import PrinterService
  import opened BluetoothModule

  datatype Screen = WebViewScreen | BluetoothScreen

  /**
   * The component state: current screen, the pending print request, the
   * paired and scanned device lists, the scanning flag and the device the
   * app believes it is connected to.
   */
  datatype AppState = AppState(
    screen: Screen,
    printType: Option<Str>,
    printData: Option<PrinterService.Doc>,
    paired: seq<DeviceInfo>,
    scanned: seq<DeviceInfo>,
    scanning: bool,
    connected: Option<DeviceInfo>)

  /** The state the component starts with. */
  function InitialApp(): (st: AppState)
    ensures st.connected == None && st.printData == None && st.scanned == []
  {
    AppState(WebViewScreen, None, None, [], [], false, None)
  }

  // ---------------------------------------------------------------------------
  // Device lists

  /** Some entry of `list` has address `a`. */
  predicate HasAddress(list: seq<DeviceInfo>, a: Str)
  {
    exists i :: 0 <= i < |list| && list[i].address == a
  }

  /** No two entries share an address. */
  predicate UniqueAddresses(list: seq<DeviceInfo>)
  {
    forall i, j :: 0 <= i < j < |list| ==> list[i].address != list[j].address
  }

  /**
   * The `DeviceFound` reducer: appends the device unless an entry with the
   * same address is already listed, in which case the list is unchanged.
   */
  function AddFound(list: seq<DeviceInfo>, d: DeviceInfo): (r: seq<DeviceInfo>)
    ensures HasAddress(list, d.address) ==> r == list
    ensures !HasAddress(list, d.address) ==> r == list + [d]
    ensures UniqueAddresses(list) ==> UniqueAddresses(r)
  {
    if exists i :: 0 <= i < |list| && list[i].address == d.address then list else list + [d]
  }

  /** `startScan`: the scanned list is emptied and the flag set before the native call. */
  function StartScanning(st: AppState, reply: Reply<()>): (r: AppState)
    ensures r.scanned == [] && r.scanning == reply.Resolve?
    ensures r.(scanned := st.scanned, scanning := st.scanning) == st
  {
    st.(scanned := [], scanning := reply.Resolve?)
  }

  /** A `DeviceFound` event. */
  function OnDeviceFound(st: AppState, d: DeviceInfo): (r: AppState)
    ensures r.(scanned := st.scanned) == st
  {
    st.(scanned := AddFound(st.scanned, d))
  }

  /**
   * The component's listeners: only `DeviceFound` is subscribed to; bond
   * changes and `DeviceDisconnected` leave the state as it is.
   */
  function OnNativeEvent(st: AppState, e: Event): (r: AppState)
    ensures e.DeviceFound? ==> r.scanned == AddFound(st.scanned, e.info)
    ensures r.(scanned := st.scanned) == st
    ensures !e.DeviceFound? ==> r == st
  {
    match e
      case DeviceFound(info) => OnDeviceFound(st, info)
      case _ => st
  }

  /** A run of `DeviceFound` events, in order. */
  function OnDevicesFound(st: AppState, ds: seq<DeviceInfo>): (r: AppState)
    ensures r.(scanned := st.scanned) == st
    decreases |ds|
  {
    if |ds| == 0 then st else OnDevicesFound(OnDeviceFound(st, ds[0]), ds[1..])
  }

  /** `fetchPairedDevices`: a resolved list replaces the paired devices. */
  function FetchPaired(st: AppState, reply: Reply<seq<DeviceInfo>>): (r: AppState)
    ensures reply.Resolve? ==> r == st.(paired := reply.value)
    ensures reply.Reject? ==> r == st
  {
    if reply.Resolve? then st.(paired := reply.value) else st
  }

  /**
   * The "Available Devices" section: the scanned devices, in order, whose
   * address is not among the paired devices.
   */
  function Available(scanned: seq<DeviceInfo>, paired: seq<DeviceInfo>): (r: seq<DeviceInfo>)
    ensures |r| <= |scanned|
    ensures forall d :: d in r <==> d in scanned && !HasAddress(paired, d.address)
  {
    if |scanned| == 0 then []
    else
      var rest := Available(scanned[1..], paired);
      assert forall d :: d in scanned <==> d == scanned[0] || d in scanned[1..];
      if HasAddress(paired, scanned[0].address) then rest else [scanned[0]] + rest
  }

  /** A row shows "Paired" when its address is among the paired devices or it reports `bonded`. */
  predicate IsPaired(item: DeviceInfo, paired: seq<DeviceInfo>)
  {
    HasAddress(paired, item.address) || item.bonded
  }

  // ---------------------------------------------------------------------------
  // WebView messages

  const PRINT_PREFIX: Str := Lit("PRINT_")

  /** The message the WebView posts: unparsable JSON, or an object's `type` and `payload`. */
  datatype Message = Unparsable | Parsed(msgType: JsValue, payload: Option<PrinterService.Doc>)

  /** A message that is a print request: a string `type` starting with `PRINT_`. */
  predicate IsPrintRequest(m: Message)
  {
    m.Parsed? && m.msgType.JsStr? && StartsWith(m.msgType.s, PRINT_PREFIX)
  }

  /**
   * `handleWebViewMessage`: a print request stores the type without its
   * `PRINT_` prefix and the payload, and switches to the Bluetooth screen;
   * anything else, including unparsable JSON and a non-string `type`,
   * changes nothing.
   */
  function HandleMessage(st: AppState, m: Message): (r: AppState)
    ensures IsPrintRequest(m) ==>
      r == st.(printType := Some(m.msgType.s[|PRINT_PREFIX|..]), printData := m.payload, screen := BluetoothScreen)
    ensures !IsPrintRequest(m) ==> r == st
  {
    if IsPrintRequest(m) then
      var t := m.msgType.s;
      ReplacePrefix(t, PRINT_PREFIX);
      st.(printType := Some(ReplaceFirst(t, PRINT_PREFIX, [])), printData := m.payload, screen := BluetoothScreen)
    else st
  }

  // ---------------------------------------------------------------------------
  // Connect and disconnect

  /**
   * `connectToDevice(device)`: a running scan is stopped first (the flag
   * drops once `stopScan` resolves); the device becomes the connected one
   * only when the native `connect` resolves.
   */
  function ConnectToDevice(st: AppState, d: DeviceInfo, stopReply: Reply<()>, reply: Reply<ConnectOk>): (r: AppState)
    ensures r.connected == (if reply.Resolve? then Some(d) else st.connected)
    ensures r.scanning == (st.scanning && !stopReply.Resolve?)
    ensures r.(connected := st.connected, scanning := st.scanning) == st
  {
    var st1 := if st.scanning && stopReply.Resolve? then st.(scanning := false) else st;
    if reply.Resolve? then st1.(connected := Some(d)) else st1
  }

  /** `disconnect`: the connected device is cleared only when the native call resolves. */
  function DisconnectDevice(st: AppState, reply: Reply<()>): (r: AppState)
    ensures r.connected == (if reply.Resolve? then None else st.connected)
    ensures r.(connected := st.connected) == st
  {
    if reply.Resolve? then st.(connected := None) else st
  }

  // ---------------------------------------------------------------------------
  // Printing

  /** Where `handlePrint` stops, or the Base64 text it hands to `printRawData`. */
  datatype PrintStep = NoPrinter | NoData | FormatFailed | EncodeFailed | Send(base64: Str)

  /**
   * `handlePrint`: no connected device, then no print data, then an empty
   * command array stop it, in that order; an encoding failure is caught;
   * otherwise exactly `byteArrayToBase64(formatDataForPrinter(type, data))`
   * is sent.
   */
  function HandlePrint(st: AppState, f: PrinterService.Formatters): (r: PrintStep)
    ensures st.connected == None <==> r == NoPrinter
    ensures st.connected.Some? && st.printData == None <==> r == NoData
    ensures r == FormatFailed <==>
      (st.connected.Some? && st.printData.Some?
       && PrinterService.FormatDataForPrinter(st.printType, st.printData.value, f) == [])
    ensures r.Send? ==>
      (st.connected.Some? && st.printData.Some?
       && var commands := PrinterService.FormatDataForPrinter(st.printType, st.printData.value, f);
          commands != [] && Base64.ByteArrayToBase64(commands) == Success(r.base64))
    ensures r == EncodeFailed <==>
      (st.connected.Some? && st.printData.Some?
       && var commands := PrinterService.FormatDataForPrinter(st.printType, st.printData.value, f);
          commands != [] && Base64.ByteArrayToBase64(commands).Failure?)
  {
    if st.connected == None then NoPrinter
    else if st.printData == None then NoData
    else
      var commands := PrinterService.FormatDataForPrinter(st.printType, st.printData.value, f);
      if |commands| == 0 then FormatFailed
      else match Base64.ByteArrayToBase64(commands)
        case Failure(_) => EncodeFailed
        case Success(text) => Send(text)
  }
}

=== FILE: app_properties.dfy ===
/**
 * Properties of the orchestrator, alone and together with the printer
 * service, the Base64 encoder and the native module: the scanned list
 * never repeats an address, a print request keeps its type, the print
 * guards, and what reaches the printer when the chain succeeds.
 */
module AppProperties {
  import opened Wrappers
  import opened JsString
  import Base64
  import opened PrinterService
  import PrinterProperties
  import opened BluetoothModule
  import opened App

  // ---------------------------------------------------------------------------
  // The scanned list

  /**
   * After any run of `DeviceFound` events the scanned list still has no
   * repeated address, lists every reported address, and holds nothing but
   * what it held before and what was reported.
   */
  lemma {:induction false} FoundKeepsUnique(st: AppState, ds: seq<DeviceInfo>)
    requires UniqueAddresses(st.scanned)
    ensures var r := OnDevicesFound(st, ds).scanned;
      && UniqueAddresses(r)
      && (forall i :: 0 <= i < |ds| ==> HasAddress(r, ds[i].address))
      && (forall d :: d in r ==> d in st.scanned || d in ds)
    decreases |ds|
  {
    if |ds| > 0 {
      var st1 := OnDeviceFound(st, ds[0]);
      FoundKeepsUnique(st1, ds[1..]);
      var r := OnDevicesFound(st1, ds[1..]).scanned;
      if !HasAddress(st.scanned, ds[0].address) {
        assert st1.scanned[|st.scanned|] == ds[0];
      }
      FoundKeepsAddress(st1, ds[1..], ds[0].address);
      forall i | 0 <= i < |ds|
        ensures HasAddress(r, ds[i].address)
      {
        if i > 0 {
          assert ds[i] == ds[1..][i - 1];
        }
      }
      forall d | d in r
        ensures d in st.scanned || d in ds
      {
        if d !in ds[1..] {
          assert d in st1.scanned;
        }
      }
    }
  }

  /** An address once listed stays listed: `DeviceFound` only ever appends. */
  lemma {:induction false} FoundKeepsAddress(st: AppState, ds: seq<DeviceInfo>, a: Str)
    requires HasAddress(st.scanned, a)
    ensures HasAddress(OnDevicesFound(st, ds).scanned, a)
    decreases |ds|
  {
    if |ds| > 0 {
      var st1 := OnDeviceFound(st, ds[0]);
      var i :| 0 <= i < |st.scanned| && st.scanned[i].address == a;
      assert st1.scanned[i] == st.scanned[i];
      FoundKeepsAddress(st1, ds[1..], a);
    }
  }

  /** A scan that starts, then reports devices, lists each address once. */
  lemma ScanListsEachAddressOnce(st: AppState, reply: Reply<()>, ds: seq<DeviceInfo>)
    ensures var r := OnDevicesFound(StartScanning(st, reply), ds).scanned;
      && UniqueAddresses(r)
      && (forall i :: 0 <= i < |ds| ==> HasAddress(r, ds[i].address))
      && (forall d :: d in r ==> d in ds)
  {
    FoundKeepsUnique(StartScanning(st, reply), ds);
  }

  /** Reporting the same device twice is the same as reporting it once. */
  lemma FoundIdempotent(list: seq<DeviceInfo>, d: DeviceInfo)
    ensures AddFound(AddFound(list, d), d) == AddFound(list, d)
  {
    if !HasAddress(list, d.address) {
      assert (list + [d])[|list|] == d;
    }
  }

  /**
   * The two sections of the Bluetooth screen split the scanned devices:
   * each is either available or has a paired address, never both, and an
   * available row shows "Paired" only when the device itself reports
   * being bonded.
   */
  lemma AvailableSplitsScanned(scanned: seq<DeviceInfo>, paired: seq<DeviceInfo>, d: DeviceInfo)
    requires d in scanned
    ensures d in Available(scanned, paired) <==> !HasAddress(paired, d.address)
    ensures d in Available(scanned, paired) ==> (IsPaired(d, paired) <==> d.bonded)
  {
  }

  /** A single scanned device is listed exactly when its address is not paired. */
  lemma AvailableOne(d: DeviceInfo, paired: seq<DeviceInfo>)
    ensures Available([d], paired) == if HasAddress(paired, d.address) then [] else [d]
  {
    assert [d][1..] == [];
  }

  /**
   * The filter keeps the order of the scan: the available section of two
   * scan batches is the section of the first batch followed by that of the
   * second.
   */
  lemma {:induction false} AvailableAppend(s1: seq<DeviceInfo>, s2: seq<DeviceInfo>, paired: seq<DeviceInfo>)
    ensures Available(s1 + s2, paired) == Available(s1, paired) + Available(s2, paired)
  {
    if |s1| == 0 {
      assert s1 + s2 == s2;
    } else {
      assert (s1 + s2)[0] == s1[0];
      assert (s1 + s2)[1..] == s1[1..] + s2;
      AvailableAppend(s1[1..], s2, paired);
    }
  }

  // ---------------------------------------------------------------------------
  // WebView messages

  /** A message of type `PRINT_` + t stores exactly t and its payload and opens the Bluetooth screen. */
  lemma PrintRequestKeepsType(st: AppState, t: Str, payload: Option<Doc>)
    ensures var r := HandleMessage(st, Parsed(JsStr(PRINT_PREFIX + t), payload));
      r.printType == Some(t) && r.printData == payload && r.screen == BluetoothScreen
  {
    assert (PRINT_PREFIX + t)[..|PRINT_PREFIX|] == PRINT_PREFIX;
    assert (PRINT_PREFIX + t)[|PRINT_PREFIX|..] == t;
  }

  // ---------------------------------------------------------------------------
  // Printing end to end

  /** The pending request can be compiled to bytes the encoder accepts. */
  predicate Printable(st: AppState)
  {
    st.printData.Some? && KnownTag(st.printType)
    && !(st.printType == Some(BARCODE_TAG) && PrinterProperties.SkuTooLong(st.printData.value))
  }

  /**
   * With a connected device and a printable request, `handlePrint` sends
   * Base64 text, and the native raw-data path appends to the printer's
   * stream exactly the bytes the formatter produced.
   */
  lemma PrintReachesPrinter(st: AppState, f: Formatters, ns: State)
    requires st.connected.Some? && Printable(st) && ns.stream.Some?
    ensures HandlePrint(st, f).Send?
    ensures var commands := FormatDataForPrinter(st.printType, st.printData.value, f);
      var (t, reply) := PrintRawData(ns, HandlePrint(st, f).base64, true);
      && reply == Resolve(())
      && |t.written| == |ns.written| + |commands|
      && t.written[..|ns.written|] == ns.written
      && (forall i :: 0 <= i < |commands| ==> t.written[|ns.written| + i] == commands[i])
  {
    var commands := FormatDataForPrinter(st.printType, st.printData.value, f);
    PrintSendsCommands(st, f);
    var sent := Base64.AsBytes(commands);
    var t := PrintRawData(ns, HandlePrint(st, f).base64, true).0;
    assert t.written == ns.written + sent;
  }

  /** The Base64 text `handlePrint` sends for a printable request decodes to the formatted commands. */
  lemma PrintSendsCommands(st: AppState, f: Formatters)
    requires st.connected.Some? && Printable(st)
    ensures var commands := FormatDataForPrinter(st.printType, st.printData.value, f);
      && AllBytes(commands)
      && HandlePrint(st, f).Send?
      && Base64.Decode(HandlePrint(st, f).base64) == Some(Base64.AsBytes(commands))
  {
    PrinterProperties.FormatAllBytes(st.printType, st.printData.value, f);
  }

  /** With a printable request, the only way the write fails is the native write itself. */
  lemma PrintWriteFails(st: AppState, f: Formatters, ns: State)
    requires st.connected.Some? && Printable(st) && ns.stream.Some?
    ensures HandlePrint(st, f).Send?
    ensures PrintRawData(ns, HandlePrint(st, f).base64, false) == (ns, Reject(PrintError))
  {
    PrintReachesPrinter(st, f, ns);
  }

  /** A request of a type the formatter does not know stops at the empty-commands guard. */
  lemma UnknownTypeFormatFails(st: AppState, f: Formatters)
    requires st.connected.Some? && st.printData.Some? && !KnownTag(st.printType)
    ensures HandlePrint(st, f) == FormatFailed
  {
  }

  /**
   * A barcode tag whose SKU is longer than 255 bytes but shorter than
   * 65536 is refused by the encoder: the length byte the compiler pushes
   * becomes a character beyond Latin-1.
   */
  lemma LongSkuTagRefused(d: Doc, f: Formatters)
    requires PrinterProperties.SkuTooLong(d) && |ValueToBytes(d.sku)| < 0x1_0000
    ensures Base64.ByteArrayToBase64(BarcodeTag(d, f)).Failure?
  {
    var segs := BarcodeSegments(d, f);
    PrinterProperties.BarcodeTagIsLayout(d, f);
    LongDataLayoutRefused(segs[0], segs[1], ValueToBytes(d.sku), segs[3]);
  }

  /** The encoder refuses any tag layout whose data length needs two bytes. */
  lemma LongDataLayoutRefused(s0: seq<int>, s1: seq<int>, data: seq<Byte>, s3: seq<int>)
    requires 0xFF < |data| < 0x1_0000
    ensures Base64.ByteArrayToBase64(PrinterProperties.TagLayout(s0, s1, data, s3)).Failure?
  {
    PrinterProperties.TagLayoutLengthByte(s0, s1, data, s3);
    var k := |INIT + ALIGN_CENTER| + |s0| + |s1| + 1 + |BARCODE_SETUP|;
    assert Base64.FromCharCode(PrinterProperties.TagLayout(s0, s1, data, s3)[k + 3]) > 0xFF;
  }

  /** So `handlePrint` stops at the encoder for such a barcode request. */
  lemma LongSkuEncodeFails(st: AppState, f: Formatters)
    requires st.connected.Some? && st.printData.Some? && st.printType == Some(BARCODE_TAG)
    requires PrinterProperties.SkuTooLong(st.printData.value) && |ValueToBytes(st.printData.value.sku)| < 0x1_0000
    ensures HandlePrint(st, f) == EncodeFailed
  {
    var d := st.printData.value;
    LongSkuTagRefused(d, f);
    assert FormatDataForPrinter(st.printType, d, f) == BarcodeTag(d, f);
  }

  // ---------------------------------------------------------------------------
  // Connection bookkeeping across the bridge

  /** The app records the device exactly when the native `connect` resolves. */
  lemma ConnectRecordsDevice(st: AppState, d: DeviceInfo, stopReply: Reply<()>,
                             s: State, p: Platform, o: ConnectOracle)
    ensures var nr := Connect(s, p, d.address, o);
      var r := ConnectToDevice(st, d, stopReply, nr.reply);
      && (r.connected == Some(d) <==> nr.reply.Resolve? || st.connected == Some(d))
      && (nr.reply.Resolve? ==> nr.state.connectedAddress == Some(d.address) && SocketConnected(nr.state))
  {
  }

  /**
   * Before connecting, the app's scanning flag drops exactly when the
   * native `stopScan` resolves; it stays up when `cancelDiscovery` throws.
   */
  lemma StopScanDropsScanning(st: AppState, d: DeviceInfo, s: State, p: Platform,
                              cancelThrows: bool, reply: Reply<ConnectOk>)
    requires st.scanning
    ensures var stop := StopScan(s, p, cancelThrows).1;
      ConnectToDevice(st, d, stop, reply).scanning <==> StopScanCancels(s, p) && cancelThrows
  {
  }

  /**
   * An ACL disconnect of the connected printer clears the native
   * connection but not the app's record: the app does not listen for
   * `DeviceDisconnected`, so `handlePrint` still gets past its device
   * guard and the native side then rejects the data with NOT_CONNECTED.
   */
  lemma StaleDeviceAfterAcl(st: AppState, f: Formatters, s: State, p: Platform, d: NativeDevice)
    requires st.connected.Some? && Printable(st)
    requires s.registered && s.connectedAddress == Some(d.address)
    ensures var (t, e) := OnReceive(s, p, AclDisconnected(Some(d)));
      var st1 := OnNativeEvent(st, e.value);
      && e == Some(DeviceDisconnected)
      && st1 == st
      && HandlePrint(st1, f).Send?
      && PrintRawData(t, HandlePrint(st1, f).base64, true) == (t, Reject(NotConnected))
  {
    PrinterProperties.FormatAllBytes(st.printType, st.printData.value, f);
  }
}

=== FILE: base64.dfy ===
/**
 * The Base64 encoder that carries printer bytes across the native bridge
 * (utils/Base64.js), and the standard decoder of section 4 of RFC 4648 that
 * the native side applies to what it receives.
 *
 * `customBtoa` walks its input with a fractional index; read as a whole it
 * turns every three input code units into four alphabet characters and pads
 * the last group with `=`. That grouping is what `Encode` states directly.
 */
module Base64 {
  import opened Wrappers
  import opened JsString

  /** `=`, the padding character (the 65th character of `chars`). */
  const PAD: Unit := 0x3D

  /** The `chars` table of the encoder, padding character last. */
  const Chars: Str :=
    Lit("ABCDEFGHIJKLMNOPQRSTUVWXYZ") + Lit("abcdefghijklmnopqrstuvwxyz") + Lit("0123456789") + Lit("+/=")

  /** The character for the 6-bit value `i`: `A-Z`, `a-z`, `0-9`, `+`, `/`. */
  function Symbol(i: int): (c: Unit)
    requires 0 <= i < 64
    ensures c != PAD
  {
    if i < 26 then 0x41 + i
    else if i < 52 then 0x61 + (i - 26)
    else if i < 62 then 0x30 + (i - 52)
    else if i == 62 then 0x2B
    else 0x2F
  }

  /** `Symbol` is the `chars` table, and `=` is its last entry. */
  lemma SymbolIsCharsTable()
    ensures |Chars| == 65 && Chars[64] == PAD
    ensures forall i :: 0 <= i < 64 ==> Chars[i] == Symbol(i)
  {
    var upper, lower := Lit("ABCDEFGHIJKLMNOPQRSTUVWXYZ"), Lit("abcdefghijklmnopqrstuvwxyz");
    var digits, rest := Lit("0123456789"), Lit("+/=");
    LettersAreConsecutive();
    assert rest == [0x2B, 0x2F, PAD];
    forall i | 0 <= i < 64
      ensures Chars[i] == Symbol(i)
    {
      if i < 26 {
        assert Chars[i] == upper[i];
      } else if i < 52 {
        assert Chars[i] == lower[i - 26];
      } else if i < 62 {
        assert Chars[i] == digits[i - 52];
      } else {
        assert Chars[i] == rest[i - 62];
      }
    }
  }

  /** The letters and digits of the `chars` table are consecutive code units. */
  lemma LettersAreConsecutive()
    ensures forall i :: 0 <= i < 26 ==> Lit("ABCDEFGHIJKLMNOPQRSTUVWXYZ")[i] == 0x41 + i
    ensures forall i :: 0 <= i < 26 ==> Lit("abcdefghijklmnopqrstuvwxyz")[i] == 0x61 + i
    ensures forall i :: 0 <= i < 10 ==> Lit("0123456789")[i] == 0x30 + i
  {
    UpperConsecutive();
    LowerConsecutive();
  }

  /** `A` to `Z` are 0x41 to 0x5A. */
  lemma UpperConsecutive()
    ensures forall i :: 0 <= i < 26 ==> Lit("ABCDEFGHIJKLMNOPQRSTUVWXYZ")[i] == 0x41 + i
  {
  }

  /** `a` to `z` are 0x61 to 0x7A. */
  lemma LowerConsecutive()
    ensures forall i :: 0 <= i < 26 ==> Lit("abcdefghijklmnopqrstuvwxyz")[i] == 0x61 + i
  {
  }

  /** The 6-bit value a Base64 alphabet character stands for; `None` for any other unit, `=` included. */
  function SymbolIndex(c: Unit): (r: Option<nat>)
    ensures r.Some? ==> r.value < 64 && Symbol(r.value) == c
  {
    if 0x41 <= c <= 0x5A then Some(c - 0x41)
    else if 0x61 <= c <= 0x7A then Some(c - 0x61 + 26)
    else if 0x30 <= c <= 0x39 then Some(c - 0x30 + 52)
    else if c == 0x2B then Some(62)
    else if c == 0x2F then Some(63)
    else None
  }

  lemma SymbolIndexOfSymbol(i: int)
    requires 0 <= i < 64
    ensures SymbolIndex(Symbol(i)) == Some(i)
  {
  }

  predicate IsSymbol(c: Unit) { SymbolIndex(c).Some? }

  // ---------------------------------------------------------------------------
  // Encoding

  /** Three bytes make four characters. */
  function Quad3(a: Byte, b: Byte, c: Byte): Str
  {
    [Symbol(a / 4), Symbol(a % 4 * 16 + b / 16), Symbol(b % 16 * 4 + c / 64), Symbol(c % 64)]
  }

  /** Two trailing bytes make three characters and one `=`. */
  function Quad2(a: Byte, b: Byte): Str
  {
    [Symbol(a / 4), Symbol(a % 4 * 16 + b / 16), Symbol(b % 16 * 4), PAD]
  }

  /** One trailing byte makes two characters and `==`. */
  function Quad1(a: Byte): Str
  {
    [Symbol(a / 4), Symbol(a % 4 * 16), PAD, PAD]
  }

  /** How many `=` end the encoding of `n` bytes. */
  function Padding(n: nat): nat
  {
    if n % 3 == 0 then 0 else 3 - n % 3
  }

  /**
   * The Base64 encoding of a byte sequence: `4 * ceil(n / 3)` characters,
   * alphabet characters except for the trailing padding, which is empty when
   * `n` is a multiple of 3, `==` when `n mod 3 = 1`, and `=` when it is 2.
   */
  function Encode(bs: seq<Byte>): (r: Str)
    ensures |r| == 4 * ((|bs| + 2) / 3)
    ensures forall i :: 0 <= i < |r| - Padding(|bs|) ==> IsSymbol(r[i])
    ensures forall i :: |r| - Padding(|bs|) <= i < |r| ==> r[i] == PAD
    decreases |bs|
  {
    if |bs| == 0 then []
    else if |bs| == 1 then
      SymbolIndexOfSymbol(bs[0] / 4);
      SymbolIndexOfSymbol(bs[0] % 4 * 16);
      Quad1(bs[0])
    else if |bs| == 2 then
      SymbolIndexOfSymbol(bs[0] / 4);
      SymbolIndexOfSymbol(bs[0] % 4 * 16 + bs[1] / 16);
      SymbolIndexOfSymbol(bs[1] % 16 * 4);
      Quad2(bs[0], bs[1])
    else
      var rest := Encode(bs[3..]);
      var quad := Quad3(bs[0], bs[1], bs[2]);
      assert (|bs| + 2) / 3 == (|bs| - 3 + 2) / 3 + 1;
      assert Padding(|bs|) == Padding(|bs| - 3);
      Quad3Symbols(bs[0], bs[1], bs[2]);
      GroupThenRest(quad, rest, Padding(|bs|));
      quad + rest
  }

  /** Four alphabet characters ahead of an encoding keep its padding at the end. */
  lemma GroupThenRest(quad: Str, rest: Str, pad: nat)
    requires |quad| == 4 && pad <= |rest|
    requires forall i :: 0 <= i < 4 ==> IsSymbol(quad[i])
    requires forall i :: 0 <= i < |rest| - pad ==> IsSymbol(rest[i])
    requires forall i :: |rest| - pad <= i < |rest| ==> rest[i] == PAD
    ensures forall i :: 0 <= i < |quad + rest| - pad ==> IsSymbol((quad + rest)[i])
    ensures forall i :: |quad + rest| - pad <= i < |quad + rest| ==> (quad + rest)[i] == PAD
  {
    assert forall i :: 4 <= i < 4 + |rest| ==> (quad + rest)[i] == rest[i - 4];
  }

  /** A full group is four alphabet characters. */
  lemma Quad3Symbols(a: Byte, b: Byte, c: Byte)
    ensures forall i :: 0 <= i < 4 ==> IsSymbol(Quad3(a, b, c)[i])
  {
    SymbolIndexOfSymbol(a / 4);
    SymbolIndexOfSymbol(a % 4 * 16 + b / 16);
    SymbolIndexOfSymbol(b % 16 * 4 + c / 64);
    SymbolIndexOfSymbol(c % 64);
  }

  /**
   * The character before the padding of `r` carries only the high bits of
   * the last byte of `bs`: four zero bits follow a single trailing byte,
   * two follow a pair.
   */
  predicate PadBitsClear(r: Str, bs: seq<Byte>)
  {
    var k := |bs| - 1;
    && (|bs| % 3 == 1 ==> |r| >= 4 && r[|r| - 3] == Symbol(bs[k] % 4 * 16))
    && (|bs| % 3 == 2 ==> |r| >= 4 && r[|r| - 2] == Symbol(bs[k] % 16 * 4))
  }

  /**
   * The unused low bits of the last data character are zero, as section
   * 3.5 of RFC 4648 requires: one trailing byte leaves four zero bits, two
   * leave two (`PadBitsClear`). Proved group by group.
   */
  lemma {:induction false} PadBitsZero(bs: seq<Byte>)
    ensures PadBitsClear(Encode(bs), bs)
    decreases |bs|
  {
    if |bs| >= 3 {
      EncodeUnfold(bs);
      PadBitsZero(bs[3..]);
      PadBitsAfterGroup(Quad3(bs[0], bs[1], bs[2]), Encode(bs[3..]), bs);
    }
  }

  /** A full group ahead of an encoding keeps its pad bits clear. */
  lemma PadBitsAfterGroup(quad: Str, rest: Str, bs: seq<Byte>)
    requires |quad| == 4 && |bs| >= 3
    requires PadBitsClear(rest, bs[3..])
    ensures PadBitsClear(quad + rest, bs)
  {
    var tail := bs[3..];
    assert |tail| % 3 == |bs| % 3;
    if |bs| % 3 != 0 {
      assert tail[|tail| - 1] == bs[|bs| - 1];
      IndexAfter(quad, rest, 3);
      IndexAfter(quad, rest, 2);
    }
  }

  /** Counting from the end, a text ahead of another does not move its characters. */
  lemma IndexAfter(quad: Str, rest: Str, j: nat)
    requires 0 < j <= |rest|
    ensures (quad + rest)[|quad + rest| - j] == rest[|rest| - j]
  {
  }

  /** One step of the encoder: a full group, then the rest. */
  lemma EncodeUnfold(bs: seq<Byte>)
    requires |bs| >= 3
    ensures Encode(bs) == Quad3(bs[0], bs[1], bs[2]) + Encode(bs[3..])
  {
  }

  /** The encoder throws this when a code unit lies outside the Latin-1 range. */
  datatype BtoaError = OutsideLatin1

  predicate IsLatin1(s: Str)
  {
    forall i :: 0 <= i < |s| ==> s[i] <= 0xFF
  }

  /** The code units of a Latin-1 string, read as bytes. */
  function Latin1Bytes(s: Str): (r: seq<Byte>)
    requires IsLatin1(s)
    ensures |r| == |s|
    ensures forall i :: 0 <= i < |s| ==> r[i] == s[i]
  {
    seq(|s|, i requires 0 <= i < |s| => s[i] as Byte)
  }

  /**
   * `customBtoa`: fails when any code unit exceeds 0xFF; otherwise the
   * standard Base64 encoding of the string's code units.
   */
  function CustomBtoa(input: Str): (r: Result<Str, BtoaError>)
    ensures r.Failure? <==> exists i :: 0 <= i < |input| && input[i] > 0xFF
    ensures r.Success? ==> IsLatin1(input) && Decode(r.value) == Some(Latin1Bytes(input))
  {
    if IsLatin1(input) then
      RoundTrip(Latin1Bytes(input));
      Success(Encode(Latin1Bytes(input)))
    else Failure(OutsideLatin1)
  }

  /** `String.fromCharCode(n)` keeps `n` modulo 2^16 (ToUint16). */
  function FromCharCode(n: int): Unit
  {
    n % 0x1_0000
  }

  /** The string `byteArrayToBase64` builds: one character per array element. */
  function BinaryString(arr: seq<int>): (r: Str)
    ensures |r| == |arr|
    ensures forall i :: 0 <= i < |arr| ==> r[i] == FromCharCode(arr[i])
  {
    seq(|arr|, i requires 0 <= i < |arr| => FromCharCode(arr[i]))
  }

  /** A byte array read as bytes. */
  function AsBytes(arr: seq<int>): (r: seq<Byte>)
    requires AllBytes(arr)
    ensures |r| == |arr| && forall i :: 0 <= i < |arr| ==> r[i] == arr[i]
  {
    seq(|arr|, i requires 0 <= i < |arr| => arr[i] as Byte)
  }

  /**
   * `byteArrayToBase64`: one character per element, always encoded with
   * `customBtoa`. It fails exactly when some element, taken modulo 2^16, is
   * above 0xFF; on a byte array it succeeds with a string the standard
   * decoder maps back to the array.
   */
  function ByteArrayToBase64(arr: seq<int>): (r: Result<Str, BtoaError>)
    ensures r.Failure? <==> exists i :: 0 <= i < |arr| && FromCharCode(arr[i]) > 0xFF
    ensures AllBytes(arr) ==> r.Success? && Decode(r.value) == Some(AsBytes(arr))
    ensures r.Success? ==> |r.value| == 4 * ((|arr| + 2) / 3)
  {
    var binary := BinaryString(arr);
    assert forall i :: 0 <= i < |arr| && FromCharCode(arr[i]) > 0xFF ==> binary[i] > 0xFF;
    assert AllBytes(arr) ==> IsLatin1(binary) && Latin1Bytes(binary) == AsBytes(arr);
    CustomBtoa(binary)
  }

  /** The empty array encodes to the empty string. */
  lemma EmptyArrayEncodesEmpty()
    ensures ByteArrayToBase64([]) == Success([])
  {
  }

  // ---------------------------------------------------------------------------
  // The standard decoder (section 4 of RFC 4648)

  /** Four alphabet characters make three bytes. */
  function Bytes3(w: nat, x: nat, y: nat, z: nat): seq<Byte>
    requires w < 64 && x < 64 && y < 64 && z < 64
  {
    [w * 4 + x / 16, x % 16 * 16 + y / 4, y % 4 * 64 + z]
  }

  /** A group of four alphabet characters, no padding allowed. */
  function DecodeQuad(q: Str): Option<seq<Byte>>
    requires |q| == 4
  {
    var w, x, y, z := SymbolIndex(q[0]), SymbolIndex(q[1]), SymbolIndex(q[2]), SymbolIndex(q[3]);
    if w.None? || x.None? || y.None? || z.None? then None
    else Some(Bytes3(w.value, x.value, y.value, z.value))
  }

  /** The last group, which may end in `=` or `==`. */
  function DecodeLastQuad(q: Str): Option<seq<Byte>>
    requires |q| == 4
  {
    var w, x, y := SymbolIndex(q[0]), SymbolIndex(q[1]), SymbolIndex(q[2]);
    if q[2] == PAD && q[3] == PAD then
      if w.None? || x.None? then None else Some([w.value * 4 + x.value / 16])
    else if q[3] == PAD then
      if w.None? || x.None? || y.None? then None
      else Some([w.value * 4 + x.value / 16, x.value % 16 * 16 + y.value / 4])
    else DecodeQuad(q)
  }

  /**
   * Decodes a padded Base64 string; `None` when it is not one. Only whole
   * groups of four are accepted, and each gives three bytes except a padded
   * last group, which gives one or two.
   */
  function Decode(s: Str): (r: Option<seq<Byte>>)
    ensures r.Some? ==> |s| % 4 == 0
    ensures r.Some? ==> |r.value| <= 3 * (|s| / 4) && (|s| > 0 ==> 3 * (|s| / 4) - 2 <= |r.value|)
    decreases |s|
  {
    if |s| == 0 then Some([])
    else if |s| < 4 then None
    else if |s| == 4 then DecodeLastQuad(s)
    else
      match DecodeQuad(s[..4])
      case None => None
      case Some(head) =>
        match Decode(s[4..])
        case None => None
        case Some(tail) => Some(head + tail)
  }

  /** Regrouping three bytes into four sextets and back gives the same bytes. */
  lemma Bytes3Regroups(a: Byte, b: Byte, c: Byte)
    ensures Bytes3(a / 4, a % 4 * 16 + b / 16, b % 16 * 4 + c / 64, c % 64) == [a, b, c]
  {
    var x := a % 4 * 16 + b / 16;
    var y := b % 16 * 4 + c / 64;
    assert x / 16 == a % 4 && x % 16 == b / 16;
    assert y / 4 == b % 16 && y % 4 == c / 64;
  }

  lemma Quad3Decodes(a: Byte, b: Byte, c: Byte)
    ensures DecodeQuad(Quad3(a, b, c)) == Some([a, b, c])
    ensures DecodeLastQuad(Quad3(a, b, c)) == Some([a, b, c])
  {
    var w, x, y, z := a / 4, a % 4 * 16 + b / 16, b % 16 * 4 + c / 64, c % 64;
    var q := Quad3(a, b, c);
    SymbolIndexOfSymbol(w);
    SymbolIndexOfSymbol(x);
    SymbolIndexOfSymbol(y);
    SymbolIndexOfSymbol(z);
    assert q == [Symbol(w), Symbol(x), Symbol(y), Symbol(z)];
    assert DecodeQuad(q) == Some(Bytes3(w, x, y, z));
    Bytes3Regroups(a, b, c);
  }

  lemma Quad2Decodes(a: Byte, b: Byte)
    ensures DecodeLastQuad(Quad2(a, b)) == Some([a, b])
  {
    SymbolIndexOfSymbol(a / 4);
    SymbolIndexOfSymbol(a % 4 * 16 + b / 16);
    SymbolIndexOfSymbol(b % 16 * 4);
  }

  lemma Quad1Decodes(a: Byte)
    ensures DecodeLastQuad(Quad1(a)) == Some([a])
  {
    SymbolIndexOfSymbol(a / 4);
    SymbolIndexOfSymbol(a % 4 * 16);
  }

  /** A full leading group is decoded on its own, ahead of the rest. */
  lemma DecodeConcat(head: Str, rest: Str)
    requires |head| == 4 && |rest| >= 4
    ensures Decode(head + rest) ==
      match DecodeQuad(head)
      case None => None
      case Some(h) => match Decode(rest) case None => None case Some(t) => Some(h + t)
  {
    var s := head + rest;
    assert s[..4] == head && s[4..] == rest;
  }

  /** The standard decoder undoes the encoder, for every byte sequence. */
  lemma {:induction false} RoundTrip(bs: seq<Byte>)
    ensures Decode(Encode(bs)) == Some(bs)
    decreases |bs|
  {
    if |bs| == 0 {
    } else if |bs| == 1 {
      Quad1Decodes(bs[0]);
      assert bs == [bs[0]];
    } else if |bs| == 2 {
      Quad2Decodes(bs[0], bs[1]);
      assert bs == [bs[0], bs[1]];
    } else {
      var head := Quad3(bs[0], bs[1], bs[2]);
      var rest := Encode(bs[3..]);
      EncodeUnfold(bs);
      Quad3Decodes(bs[0], bs[1], bs[2]);
      assert bs == [bs[0], bs[1], bs[2]] + bs[3..];
      if |bs| == 3 {
        assert rest == [];
        assert head + rest == head;
        assert bs == [bs[0], bs[1], bs[2]];
        assert Decode(head) == DecodeLastQuad(head);
      } else {
        RoundTrip(bs[3..]);
        DecodeConcat(head, rest);
      }
    }
  }

  /** Different byte sequences never share an encoding. */
  lemma EncodeInjective(xs: seq<Byte>, ys: seq<Byte>)
    requires Encode(xs) == Encode(ys)
    ensures xs == ys
  {
    RoundTrip(xs);
    RoundTrip(ys);
  }
}

=== FILE: bluetooth_module.dfy ===
/**
 * The connection manager of the native Bluetooth module
 * (android/app/src/main/java/com/counterapp/BluetoothModule.kt): the
 * socket, output-stream and connected-address fields, the last-printer
 * preference store, and the transitions the bridge methods and the
 * broadcast receiver perform on them.
 *
 * Every call into Android is an oracle: what the platform reports
 * (`Platform`), what the socket factory does (`ConnectOracle`), whether a
 * write or a close throws. Each transition returns the new state together
 * with the promise outcome, so "which fields change" is a statement about
 * the returned record.
 */
module BluetoothModule {
  import opened Wrappers
  import opened JsString
  import Base64

  // ---------------------------------------------------------------------------
  // Promise outcomes

  /** The rejection codes the module's promises carry. */
  datatype Code =
    | BluetoothUnavailable | BluetoothDisabled | PermissionDenied
    | ConnectionFailed | Error | NotConnected | SendFailed | PrintError
    | PairingFailed | PairingError | ScanError | StopScanError | DisconnectError

  /** A settled promise: resolved with a value or rejected with a code. */
  datatype Reply<+T> = Resolve(value: T) | Reject(code: Code)

  // ---------------------------------------------------------------------------
  // State

  /** A Bluetooth socket the module created, with its `isConnected` flag. */
  datatype Socket = Socket(id: nat, connected: bool)

  /** The two keys of the `BluetoothPrefs` shared preferences. */
  datatype Prefs = Prefs(lastAddress: Option<Str>, lastName: Option<Str>)

  /**
   * The module's mutable fields. `stream` names the socket whose output
   * stream `outputStream` holds; `discovering` and `registered` stand for
   * the adapter's discovery flag and the broadcast receiver registration;
   * `nextId` numbers the sockets the module creates; `written` is every
   * byte written to an output stream so far.
   */
  datatype State = State(
    socket: Option<Socket>,
    stream: Option<nat>,
    connectedAddress: Option<Str>,
    discovering: bool,
    registered: bool,
    nextId: nat,
    prefs: Prefs,
    written: seq<Byte>)

  /** The module as constructed: no socket, no stream, nothing stored. */
  function Initial(prefs: Prefs): (s: State)
    ensures s.socket == None && s.stream == None && s.connectedAddress == None
    ensures s.prefs == prefs && s.written == []
  {
    State(None, None, None, false, false, 0, prefs, [])
  }

  /** `bluetoothSocket?.isConnected == true`. */
  predicate SocketConnected(s: State)
  {
    s.socket.Some? && s.socket.value.connected
  }

  /** `bluetoothSocket?.close()`: the socket, if any, stops being connected. */
  function CloseSocket(s: State): (r: State)
    ensures r.socket.Some? <==> s.socket.Some?
    ensures r.socket.Some? ==> r.socket.value.id == s.socket.value.id
    ensures !SocketConnected(r)
    ensures r.(socket := s.socket) == s
  {
    if s.socket.Some? then s.(socket := Some(s.socket.value.(connected := false))) else s
  }

  /** What the platform reports; each field is one Android query. */
  datatype Platform = Platform(
    hasAdapter: bool,
    enabled: bool,
    modernSdk: bool,
    connectGranted: bool,
    scanGranted: bool,
    locationGranted: bool)

  /** `checkBluetoothConnectPermission`: granted, or not needed before Android 12. */
  predicate ConnectPermission(p: Platform)
  {
    !p.modernSdk || p.connectGranted
  }

  // ---------------------------------------------------------------------------
  // connect

  /**
   * One socket attempt: creating the socket throws, or the created socket's
   * `connect()` throws, or it opens. `io` says whether what was thrown is an
   * `IOException`.
   */
  datatype Attempt = CreateThrows(io: bool) | ConnectThrows(io: bool) | Opens

  /**
   * What Android does during one `connect` call: whether `getRemoteDevice`
   * throws, then the secure RFCOMM attempt and the reflective fallback.
   */
  datatype ConnectOracle = ConnectOracle(lookupThrows: bool, secure: Attempt, fallback: Attempt)

  datatype ConnectOk = AlreadyConnected | Connected

  /** The outcome of `connect`: new state, reply and how many sockets it tried to create. */
  datatype ConnectResult = ConnectResult(state: State, reply: Reply<ConnectOk>, attempts: nat)

  /** The socket field after an attempt: a fresh socket unless creation threw. */
  function AfterAttempt(s: State, a: Attempt): (r: State)
    ensures a.CreateThrows? ==> r == s
    ensures !a.CreateThrows? ==> r.socket == Some(Socket(s.nextId, a.Opens?)) && r.nextId == s.nextId + 1
    ensures r.(socket := s.socket, nextId := s.nextId) == s
  {
    if a.CreateThrows? then s else s.(socket := Some(Socket(s.nextId, a.Opens?)), nextId := s.nextId + 1)
  }

  /** The `IOException` handler: close the current socket, forget the address. */
  function FailIo(s: State, attempts: nat): (r: ConnectResult)
    ensures r.reply == Reject(ConnectionFailed) && r.attempts == attempts
    ensures !SocketConnected(r.state) && r.state.connectedAddress == None
    ensures r.state.stream == s.stream && r.state.prefs == s.prefs
    ensures r.state.written == s.written && r.state.registered == s.registered
  {
    ConnectResult(CloseSocket(s).(connectedAddress := None), Reject(ConnectionFailed), attempts)
  }

  /** The generic handler: forget the address, leave the socket as it is. */
  function FailOther(s: State, attempts: nat): (r: ConnectResult)
    ensures r.reply == Reject(Error) && r.attempts == attempts
    ensures r.state == s.(connectedAddress := None)
  {
    ConnectResult(s.(connectedAddress := None), Reject(Error), attempts)
  }

  /** A socket opened: the stream becomes its output stream and the address is recorded. */
  function Succeed(s: State, address: Str, attempts: nat): (r: ConnectResult)
    requires SocketConnected(s)
    ensures r.reply == Resolve(Connected) && r.attempts == attempts
    ensures r.state == s.(stream := Some(s.socket.value.id), connectedAddress := Some(address))
  {
    ConnectResult(s.(stream := Some(s.socket.value.id), connectedAddress := Some(address)), Resolve(Connected), attempts)
  }

  /**
   * `connect(address)`. The adapter check comes first, then the
   * already-connected short cut, the device lookup and the permission check;
   * discovery is cancelled (when the scan permission allows) and a connected
   * socket closed; then the secure socket is tried and, only when it throws
   * an `IOException`, one reflective fallback. The last printer is never
   * saved here.
   */
  function Connect(s: State, p: Platform, address: Str, o: ConnectOracle): (r: ConnectResult)
    ensures !p.hasAdapter ==> r == ConnectResult(s, Reject(BluetoothUnavailable), 0)
    ensures r.reply.Resolve? && r.reply.value == Connected ==>
      && r.state.connectedAddress == Some(address)
      && SocketConnected(r.state)
      && r.state.stream == Some(r.state.socket.value.id)
    ensures r.reply == Reject(ConnectionFailed) ==> r.state.connectedAddress == None && !SocketConnected(r.state)
    ensures r.reply == Reject(Error) ==> r.state.connectedAddress == None
    ensures r.reply.Reject? && r.reply.code != BluetoothUnavailable && r.reply.code != PermissionDenied ==>
      r.state.connectedAddress == None
    ensures r.state.prefs == s.prefs && r.state.written == s.written && r.state.registered == s.registered
    ensures r.reply.Reject? ==> r.state.stream == s.stream
    ensures r.reply == Reject(PermissionDenied) ==> r.state == s
    ensures r.reply == Reject(Error) && r.attempts == 0 ==> r.state == s.(connectedAddress := None)
    ensures r.attempts > 0 ==> r.state.discovering == (s.discovering && !p.scanGranted)
    ensures r.attempts <= 2
  {
    if !p.hasAdapter then ConnectResult(s, Reject(BluetoothUnavailable), 0)
    else if s.connectedAddress == Some(address) && SocketConnected(s) then ConnectResult(s, Resolve(AlreadyConnected), 0)
    else if o.lookupThrows then FailOther(s, 0)
    else if !ConnectPermission(p) then ConnectResult(s, Reject(PermissionDenied), 0)
    else
      var s1 := if s.discovering && p.scanGranted then s.(discovering := false) else s;
      var s2 := if SocketConnected(s1) then CloseSocket(s1) else s1;
      TrySockets(s2, address, o)
  }

  /**
   * The socket part of `connect`: the secure attempt, then the fallback
   * only when the secure attempt threw an `IOException`.
   */
  function TrySockets(s: State, address: Str, o: ConnectOracle): (r: ConnectResult)
    ensures r.reply.Resolve? ==>
      && r.reply.value == Connected
      && r.state.connectedAddress == Some(address)
      && SocketConnected(r.state)
      && r.state.stream == Some(r.state.socket.value.id)
    ensures r.reply.Reject? ==> r.state.connectedAddress == None && r.state.stream == s.stream
    ensures r.reply.Reject? ==> r.reply.code == ConnectionFailed || r.reply.code == Error
    ensures r.reply == Reject(ConnectionFailed) ==> !SocketConnected(r.state)
    ensures r.state.prefs == s.prefs && r.state.written == s.written && r.state.registered == s.registered
    ensures r.attempts == (if !o.secure.Opens? && o.secure.io then 2 else 1)
  {
    var s1 := AfterAttempt(s, o.secure);
    match o.secure
    case Opens => Succeed(s1, address, 1)
    case CreateThrows(io) => if io then Fallback(s1, address, o.fallback) else FailOther(s1, 1)
    case ConnectThrows(io) => if io then Fallback(s1, address, o.fallback) else FailOther(s1, 1)
  }

  /**
   * The reflective `createRfcommSocket(1)` fallback. Whatever it throws is
   * rethrown as an `IOException`.
   */
  function Fallback(s: State, address: Str, a: Attempt): (r: ConnectResult)
    ensures r.attempts == 2
  {
    var s1 := AfterAttempt(s, a);
    if a.Opens? then Succeed(s1, address, 2) else FailIo(s1, 2)
  }

  // ---------------------------------------------------------------------------
  // disconnect

  /**
   * `disconnect`: closes the stream and the socket and drops both. A close
   * that throws leaves the fields as they were. The connected address and
   * the stored printer are never touched.
   */
  function Disconnect(s: State, closeThrows: bool): (r: (State, Reply<()>))
    ensures r.1.Resolve? <==> !closeThrows
    ensures r.1.Resolve? ==> r.0 == s.(socket := None, stream := None)
    ensures r.1.Reject? ==> r.0 == s && r.1.code == DisconnectError
  {
    if closeThrows then (s, Reject(DisconnectError))
    else (s.(socket := None, stream := None), Resolve(()))
  }

  // ---------------------------------------------------------------------------
  // Writing

  /** A UTF-16 surrogate code unit. */
  predicate IsSurrogate(c: Unit) { 0xD800 <= c <= 0xDFFF }
  predicate IsHighSurrogate(c: Unit) { 0xD800 <= c <= 0xDBFF }
  predicate IsLowSurrogate(c: Unit) { 0xDC00 <= c <= 0xDFFF }

  /** The UTF-8 bytes of one code point. */
  function CodePointBytes(cp: nat): (r: seq<Byte>)
    requires cp < 0x11_0000
    ensures 1 <= |r| <= 4
    ensures cp < 0x80 ==> r == [cp]
  {
    if cp < 0x80 then [cp]
    else if cp < 0x800 then [0xC0 + cp / 0x40, 0x80 + cp % 0x40]
    else if cp < 0x1_0000 then [0xE0 + cp / 0x1000, 0x80 + (cp / 0x40) % 0x40, 0x80 + cp % 0x40]
    else [0xF0 + cp / 0x4_0000, 0x80 + (cp / 0x1000) % 0x40, 0x80 + (cp / 0x40) % 0x40, 0x80 + cp % 0x40]
  }

  /**
   * `String.toByteArray()`: UTF-8, a surrogate pair becoming one four-byte
   * code point and an unpaired surrogate becoming `?`. ASCII text is its own
   * encoding, and no code unit takes more than three bytes.
   */
  function Utf8(s: Str): (r: seq<Byte>)
    ensures |r| <= 3 * |s|
    ensures (forall i :: 0 <= i < |s| ==> s[i] < 0x80) ==> r == s
    decreases |s|
  {
    if |s| == 0 then []
    else if |s| > 1 && IsHighSurrogate(s[0]) && IsLowSurrogate(s[1]) then
      CodePointBytes(0x1_0000 + (s[0] as int - 0xD800) * 0x400 + (s[1] as int - 0xDC00)) + Utf8(s[2..])
    else if IsSurrogate(s[0]) then [0x3F] + Utf8(s[1..])
    else CodePointBytes(s[0]) + Utf8(s[1..])
  }

  /**
   * `sendData(message)`: rejects `NOT_CONNECTED` without an output stream;
   * otherwise writes the UTF-8 bytes of the message, or rejects
   * `SEND_FAILED` when the write throws.
   */
  function SendData(s: State, message: Str, writeOk: bool): (r: (State, Reply<()>))
    ensures s.stream == None ==> r == (s, Reject(NotConnected))
    ensures r.1.Resolve? <==> s.stream.Some? && writeOk
    ensures r.1.Resolve? ==> r.0 == s.(written := s.written + Utf8(message))
    ensures r.1.Reject? ==> r.0 == s
  {
    if s.stream == None then (s, Reject(NotConnected))
    else if writeOk then (s.(written := s.written + Utf8(message)), Resolve(()))
    else (s, Reject(SendFailed))
  }

  /**
   * `printRawData(base64)`: rejects `NOT_CONNECTED` without an output
   * stream; otherwise decodes the text and writes the bytes. A text that
   * does not decode, or a write that throws, rejects `PRINT_ERROR`.
   */
  function PrintRawData(s: State, base64: Str, writeOk: bool): (r: (State, Reply<()>))
    ensures s.stream == None ==> r == (s, Reject(NotConnected))
    ensures r.1.Resolve? <==> s.stream.Some? && Base64.Decode(base64).Some? && writeOk
    ensures r.1.Resolve? ==> r.0 == s.(written := s.written + Base64.Decode(base64).value)
    ensures r.1.Reject? ==> r.0 == s
    ensures s.stream.Some? && r.1.Reject? ==> r.1.code == PrintError
  {
    if s.stream == None then (s, Reject(NotConnected))
    else match Base64.Decode(base64)
      case None => (s, Reject(PrintError))
      case Some(bytes) => if writeOk then (s.(written := s.written + bytes), Resolve(())) else (s, Reject(PrintError))
  }

  // ---------------------------------------------------------------------------
  // Last printer

  datatype LastPrinter = LastPrinter(address: Str, name: Option<Str>)

  /** `saveLastPrinter(address, name)`: stores both keys; nothing else changes. */
  function SaveLastPrinter(s: State, address: Str, name: Str): (r: State)
    ensures r.prefs == Prefs(Some(address), Some(name))
    ensures r.(prefs := s.prefs) == s
  {
    s.(prefs := Prefs(Some(address), Some(name)))
  }

  /** `getLastPrinter`: the stored pair, or null exactly when no address is stored. */
  function GetLastPrinter(s: State): (r: Option<LastPrinter>)
    ensures r == None <==> s.prefs.lastAddress == None
    ensures r.Some? ==> r.value.address == s.prefs.lastAddress.value && r.value.name == s.prefs.lastName
  {
    if s.prefs.lastAddress.Some? then Some(LastPrinter(s.prefs.lastAddress.value, s.prefs.lastName)) else None
  }

  /** `clearLastPrinter`: removes both keys; nothing else changes. */
  function ClearLastPrinter(s: State): (r: State)
    ensures r.prefs == Prefs(None, None)
    ensures r.(prefs := s.prefs) == s
  {
    s.(prefs := Prefs(None, None))
  }

  // ---------------------------------------------------------------------------
  // Scanning and pairing

  /**
   * What Android does during one `startScan` past its checks: whether
   * `registerReceiver` throws, whether `cancelDiscovery` of a running
   * discovery throws, and what `startDiscovery` does (`None` when it throws,
   * otherwise whether discovery is running afterwards).
   */
  datatype ScanOracle = ScanOracle(registerThrows: bool, cancelThrows: bool, started: Option<bool>)

  /** The adapter, enabled and permission checks of `startScan` all pass. */
  predicate ScanChecksPass(p: Platform)
  {
    p.hasAdapter && p.enabled && ScanPermission(p)
  }

  /**
   * `startScan`: the adapter, enabled and permission checks come first and
   * leave the state alone; then the receiver is (re)registered, any running
   * discovery cancelled and a new one started. Any exception in that
   * sequence rejects `SCAN_ERROR` and leaves what was already done in place.
   */
  function StartScan(s: State, p: Platform, o: ScanOracle): (r: (State, Reply<()>))
    ensures !p.hasAdapter ==> r == (s, Reject(BluetoothUnavailable))
    ensures p.hasAdapter && !p.enabled ==> r == (s, Reject(BluetoothDisabled))
    ensures p.hasAdapter && p.enabled && !ScanPermission(p) ==> r == (s, Reject(PermissionDenied))
    ensures r.1.Resolve? <==>
      ScanChecksPass(p) && !o.registerThrows && !(s.discovering && o.cancelThrows) && o.started.Some?
    ensures r.1.Resolve? ==> r.0.registered && r.0.discovering == o.started.value
    ensures ScanChecksPass(p) && r.1.Reject? ==> r.1 == Reject(ScanError) && (r.0.registered <==> !o.registerThrows)
    ensures ScanChecksPass(p) && o.registerThrows ==> r.0.discovering == s.discovering
    ensures ScanChecksPass(p) && !o.registerThrows && s.discovering && o.cancelThrows ==> r.0.discovering
    ensures ScanChecksPass(p) && !o.registerThrows && !(s.discovering && o.cancelThrows) && o.started.None?
      ==> !r.0.discovering
    ensures r.0.(registered := s.registered, discovering := s.discovering) == s
  {
    if !p.hasAdapter then (s, Reject(BluetoothUnavailable))
    else if !p.enabled then (s, Reject(BluetoothDisabled))
    else if !ScanPermission(p) then (s, Reject(PermissionDenied))
    else if o.registerThrows then (s.(registered := false), Reject(ScanError))
    else if s.discovering && o.cancelThrows then (s.(registered := true), Reject(ScanError))
    else if o.started.None? then (s.(registered := true, discovering := false), Reject(ScanError))
    else (s.(registered := true, discovering := o.started.value), Resolve(()))
  }

  /** The scan permission on Android 12 and later, fine location before. */
  predicate ScanPermission(p: Platform)
  {
    if p.modernSdk then p.scanGranted else p.locationGranted
  }

  /** `stopScan` reaches `cancelDiscovery`: discovery is running and the scan permission is held. */
  predicate StopScanCancels(s: State, p: Platform)
  {
    p.hasAdapter && s.discovering && p.scanGranted
  }

  /**
   * `stopScan`: a running discovery is cancelled when the scan permission
   * allows, then the receiver is unregistered (an unregistered receiver is
   * not an error) and the promise resolves. A `cancelDiscovery` that throws
   * rejects `STOP_SCAN_ERROR` before the receiver is unregistered.
   */
  function StopScan(s: State, p: Platform, cancelThrows: bool): (r: (State, Reply<()>))
    ensures r.1.Reject? <==> StopScanCancels(s, p) && cancelThrows
    ensures r.1.Reject? ==> r == (s, Reject(StopScanError))
    ensures r.1.Resolve? ==> !r.0.registered
    ensures r.1.Resolve? ==> r.0.discovering == (s.discovering && !StopScanCancels(s, p))
    ensures r.0.(registered := s.registered, discovering := s.discovering) == s
  {
    if StopScanCancels(s, p) then
      if cancelThrows then (s, Reject(StopScanError))
      else (s.(discovering := false, registered := false), Resolve(()))
    else (s.(registered := false), Resolve(()))
  }

  datatype PairOk = AlreadyPaired | PairingInitiated

  /**
   * What Android does during `pairDevice`: whether `getRemoteDevice`
   * throws, whether the device is already bonded, and what `createBond`
   * does (`None` when it throws, otherwise what it returns).
   */
  datatype PairOracle = PairOracle(lookupThrows: bool, bonded: bool, bond: Option<bool>)

  /** `pairDevice` gets past the adapter, lookup and permission checks. */
  predicate PairChecksPass(p: Platform, o: PairOracle)
  {
    p.hasAdapter && !o.lookupThrows && ConnectPermission(p)
  }

  /**
   * `pairDevice(address)`: the outcome and whether `createBond` was called.
   * It is called only past every check and only for a device not yet
   * bonded; a throw from the lookup or from `createBond` rejects
   * `PAIRING_ERROR`. The module's state is never changed.
   */
  function PairDevice(p: Platform, o: PairOracle): (r: (Reply<PairOk>, bool))
    ensures r.1 <==> PairChecksPass(p, o) && !o.bonded
    ensures !p.hasAdapter ==> r.0 == Reject(BluetoothUnavailable)
    ensures r.0 == Reject(PermissionDenied) <==> p.hasAdapter && !o.lookupThrows && !ConnectPermission(p)
    ensures r.0 == Resolve(AlreadyPaired) <==> PairChecksPass(p, o) && o.bonded
    ensures r.0 == Resolve(PairingInitiated) <==> r.1 && o.bond == Some(true)
    ensures r.0 == Reject(PairingFailed) <==> r.1 && o.bond == Some(false)
    ensures r.0 == Reject(PairingError) <==> p.hasAdapter && (o.lookupThrows || (r.1 && o.bond.None?))
  {
    if !p.hasAdapter then (Reject(BluetoothUnavailable), false)
    else if o.lookupThrows then (Reject(PairingError), false)
    else if !ConnectPermission(p) then (Reject(PermissionDenied), false)
    else if o.bonded then (Resolve(AlreadyPaired), false)
    else match o.bond
      case None => (Reject(PairingError), true)
      case Some(started) => (if started then Resolve(PairingInitiated) else Reject(PairingFailed), true)
  }

  // ---------------------------------------------------------------------------
  // Device reports

  /** A remote device as Android reports it: its name may be null. */
  datatype NativeDevice = NativeDevice(name: Option<Str>, address: Str, bondState: int)

  /** A device as the module reports it to JavaScript. */
  datatype DeviceInfo = DeviceInfo(name: Str, address: Str, bonded: bool)

  const BOND_NONE: int := 10
  const BOND_BONDING: int := 11
  const BOND_BONDED: int := 12

  /** `device.name ?: "Unknown Device"`. */
  function DisplayName(name: Option<Str>): (r: Str)
    ensures name.Some? ==> r == name.value
    ensures name == None ==> r == Lit("Unknown Device")
  {
    if name.Some? then name.value else Lit("Unknown Device")
  }

  /** `getPairedDevices`: every bonded device, reported as bonded, in order. */
  function GetPairedDevices(p: Platform, bonded: seq<NativeDevice>): (r: Reply<seq<DeviceInfo>>)
    ensures !p.hasAdapter ==> r == Reject(BluetoothUnavailable)
    ensures p.hasAdapter && !ConnectPermission(p) ==> r == Reject(PermissionDenied)
    ensures r.Resolve? <==> p.hasAdapter && ConnectPermission(p)
    ensures r.Resolve? ==> |r.value| == |bonded|
    ensures r.Resolve? ==> forall i :: 0 <= i < |r.value| && i < |bonded| ==>
      r.value[i] == DeviceInfo(DisplayName(bonded[i].name), bonded[i].address, true)
  {
    if !p.hasAdapter then Reject(BluetoothUnavailable)
    else if !ConnectPermission(p) then Reject(PermissionDenied)
    else Resolve(seq(|bonded|, i requires 0 <= i < |bonded| =>
      DeviceInfo(DisplayName(bonded[i].name), bonded[i].address, true)))
  }

  /** `isConnected`: true only for a socket that is present and connected. */
  function IsConnected(s: State): (r: bool)
    ensures r <==> s.socket.Some? && s.socket.value.connected
  {
    SocketConnected(s)
  }

  /**
   * `getConnectedDevice`: the device when the socket is connected and an
   * address is recorded, with the name Android reports for it; null
   * otherwise, or when the lookup throws.
   */
  function GetConnectedDevice(s: State, lookupThrows: bool, name: Option<Str>): (r: Option<DeviceInfo>)
    ensures r.Some? <==> SocketConnected(s) && s.connectedAddress.Some? && !lookupThrows
    ensures r.Some? ==> r.value.address == s.connectedAddress.value && r.value.name == DisplayName(name)
  {
    if SocketConnected(s) && s.connectedAddress.Some? && !lookupThrows then
      Some(DeviceInfo(DisplayName(name), s.connectedAddress.value, false))
    else None
  }

  /** `isBluetoothEnabled`: false without an adapter. */
  function IsBluetoothEnabled(p: Platform): (r: bool)
    ensures r <==> p.hasAdapter && p.enabled
  {
    p.hasAdapter && p.enabled
  }

  // ---------------------------------------------------------------------------
  // The broadcast receiver

  /** A broadcast the receiver handles; the device extra may be absent. */
  datatype Intent =
    | Found(device: Option<NativeDevice>)
    | BondChanged(device: Option<NativeDevice>, bondState: int)
    | AclDisconnected(device: Option<NativeDevice>)

  /** The events the module emits to JavaScript. */
  datatype Event =
    | DeviceFound(info: DeviceInfo)
    | DeviceBondStateChanged(name: Str, address: Str, bondState: Str)
    | DeviceDisconnected

  /** The `bondState` text of a bond-state event. */
  function BondLabel(state: int): Str
  {
    if state == BOND_BONDED then Lit("bonded") else if state == BOND_BONDING then Lit("bonding") else Lit("none")
  }

  /** `device?.address`. */
  function AddressOf(device: Option<NativeDevice>): Option<Str>
  {
    if device.Some? then Some(device.value.address) else None
  }

  /**
   * `onReceive`, which only runs while the receiver is registered. A found
   * device is reported when the connect permission is held; a bond change
   * is reported with its label; an ACL disconnect whose device address
   * equals the connected address (Kotlin `==`, so two nulls are equal)
   * clears the socket, the stream and the address and emits
   * `DeviceDisconnected`. Nothing else changes the state.
   */
  function OnReceive(s: State, p: Platform, intent: Intent): (r: (State, Option<Event>))
    ensures !s.registered ==> r == (s, None)
    ensures r.0 != s ==> intent.AclDisconnected?
    ensures intent.AclDisconnected? && s.registered ==>
      (r.1 == Some(DeviceDisconnected) <==> AddressOf(intent.device) == s.connectedAddress)
    ensures r.1 == Some(DeviceDisconnected) ==>
      r.0 == s.(socket := None, stream := None, connectedAddress := None)
    ensures r.1.Some? && r.1.value.DeviceFound? ==> ConnectPermission(p)
  {
    if !s.registered then (s, None)
    else match intent
      case Found(device) =>
        if device.Some? && ConnectPermission(p) then
          var d := device.value;
          (s, Some(DeviceFound(DeviceInfo(DisplayName(d.name), d.address, d.bondState == BOND_BONDED))))
        else (s, None)
      case BondChanged(device, state) =>
        if device.Some? then
          (s, Some(DeviceBondStateChanged(DisplayName(device.value.name), device.value.address, BondLabel(state))))
        else (s, None)
      case AclDisconnected(device) =>
        if AddressOf(device) == s.connectedAddress then
          (s.(socket := None, stream := None, connectedAddress := None), Some(DeviceDisconnected))
        else (s, None)
  }
}

=== FILE: bluetooth_properties.dfy ===
/**
 * Properties of the native connection manager that relate several calls:
 * the already-connected short cut, the secure-then-fallback order, what a
 * failed connect leaves behind, the send guards after `disconnect` and
 * after an ACL disconnect, and the last-printer store.
 */
module ConnectionProperties {
  import opened Wrappers
  import opened JsString
  import Base64
  import opened BluetoothModule

  /** The checks `connect` makes before it touches any socket. */
  predicate PastChecks(s: State, p: Platform, address: Str, o: ConnectOracle)
  {
    p.hasAdapter && !(s.connectedAddress == Some(address) && SocketConnected(s))
    && !o.lookupThrows && ConnectPermission(p)
  }

  /** Connecting to the device already connected changes nothing and creates no socket. */
  lemma ConnectShortCut(s: State, p: Platform, address: Str, o: ConnectOracle)
    requires p.hasAdapter && s.connectedAddress == Some(address) && SocketConnected(s)
    ensures Connect(s, p, address, o) == ConnectResult(s, Resolve(AlreadyConnected), 0)
  {
  }

  /** A second `connect` to the address just connected is the short cut, whatever Android would do. */
  lemma ConnectTwice(s: State, p: Platform, address: Str, o1: ConnectOracle, o2: ConnectOracle)
    requires Connect(s, p, address, o1).reply == Resolve(Connected)
    ensures var s1 := Connect(s, p, address, o1).state;
      Connect(s1, p, address, o2) == ConnectResult(s1, Resolve(AlreadyConnected), 0)
  {
    var r := Connect(s, p, address, o1);
    assert p.hasAdapter;
    assert r.state.connectedAddress == Some(address) && SocketConnected(r.state);
  }

  /**
   * Exactly one fallback socket is tried, and only when the secure attempt
   * throws an `IOException`; otherwise at most the secure socket is tried.
   */
  lemma FallbackOnlyAfterIoFailure(s: State, p: Platform, address: Str, o: ConnectOracle)
    ensures Connect(s, p, address, o).attempts == 2 <==>
      PastChecks(s, p, address, o) && !o.secure.Opens? && o.secure.io
    ensures Connect(s, p, address, o).attempts == 1 <==>
      PastChecks(s, p, address, o) && (o.secure.Opens? || !o.secure.io)
  {
  }

  /**
   * When the secure socket opens, the module is connected through that new
   * socket and its stream, to the requested address.
   */
  lemma SecureSocketFirst(s: State, p: Platform, address: Str, o: ConnectOracle)
    requires PastChecks(s, p, address, o) && o.secure == Opens
    ensures var r := Connect(s, p, address, o);
      && r.reply == Resolve(Connected) && r.attempts == 1
      && r.state.socket == Some(Socket(s.nextId, true))
      && r.state.stream == Some(s.nextId)
      && r.state.connectedAddress == Some(address)
  {
  }

  /**
   * A connect that fails with an `IOException` forgets the address and
   * leaves no connected socket, but keeps the old output stream: the send
   * guards test only the stream, so they do not report NOT_CONNECTED
   * afterwards when a stream was open before.
   */
  lemma FailedConnectKeepsStream(s: State, p: Platform, address: Str, o: ConnectOracle, m: Str, writeOk: bool)
    requires Connect(s, p, address, o).reply == Reject(ConnectionFailed)
    requires s.stream.Some?
    ensures var t := Connect(s, p, address, o).state;
      && t.connectedAddress == None && !SocketConnected(t) && t.stream == s.stream
      && SendData(t, m, writeOk).1 != Reject(NotConnected)
  {
  }

  /** `connect` never stores the last printer, whatever happens. */
  lemma ConnectLeavesPrefs(s: State, p: Platform, address: Str, o: ConnectOracle)
    ensures GetLastPrinter(Connect(s, p, address, o).state) == GetLastPrinter(s)
  {
  }

  /** After a successful `disconnect` both send paths report NOT_CONNECTED and write nothing. */
  lemma SendAfterDisconnect(s: State, m: Str, b64: Str, writeOk: bool)
    requires Disconnect(s, false).1.Resolve?
    ensures var t := Disconnect(s, false).0;
      && SendData(t, m, writeOk) == (t, Reject(NotConnected))
      && PrintRawData(t, b64, writeOk) == (t, Reject(NotConnected))
      && t.connectedAddress == s.connectedAddress
      && GetLastPrinter(t) == GetLastPrinter(s)
  {
  }

  /**
   * An ACL disconnect of the connected device clears the connection; a
   * second one for the same device then finds no matching address and
   * neither changes the state nor emits anything.
   */
  lemma AclDisconnectOnce(s: State, p: Platform, d: NativeDevice)
    requires s.registered && s.connectedAddress == Some(d.address)
    ensures var (t, e) := OnReceive(s, p, AclDisconnected(Some(d)));
      && e == Some(DeviceDisconnected)
      && t.socket == None && t.stream == None && t.connectedAddress == None
      && OnReceive(t, p, AclDisconnected(Some(d))) == (t, None)
  {
  }

  /**
   * Kotlin's `==` on nullable strings: with no connected address, an ACL
   * broadcast that carries no device still counts as a match.
   */
  lemma AclWithoutDevice(s: State, p: Platform)
    requires s.registered && s.connectedAddress == None
    ensures OnReceive(s, p, AclDisconnected(None)).1 == Some(DeviceDisconnected)
  {
  }

  /** After an ACL disconnect the send guards reject NOT_CONNECTED. */
  lemma SendAfterAclDisconnect(s: State, p: Platform, d: NativeDevice, m: Str, writeOk: bool)
    requires s.registered && s.connectedAddress == Some(d.address)
    ensures var t := OnReceive(s, p, AclDisconnected(Some(d))).0;
      SendData(t, m, writeOk).1 == Reject(NotConnected)
  {
  }

  /**
   * What `byteArrayToBase64` produces for a byte array reaches the printer
   * unchanged: the raw-data path decodes it back to the same bytes.
   */
  lemma RawDataRoundTrip(s: State, bytes: seq<Byte>)
    requires s.stream.Some?
    ensures PrintRawData(s, Base64.Encode(bytes), true) == (s.(written := s.written + bytes), Resolve(()))
  {
    Base64.RoundTrip(bytes);
  }

  /** `getLastPrinter` after `saveLastPrinter(a, n)` returns `{a, n}`. */
  lemma SaveThenGet(s: State, address: Str, name: Str)
    ensures GetLastPrinter(SaveLastPrinter(s, address, name)) == Some(LastPrinter(address, Some(name)))
  {
  }

  /** `getLastPrinter` after `clearLastPrinter` returns null, whatever was stored. */
  lemma ClearThenGet(s: State)
    ensures GetLastPrinter(ClearLastPrinter(s)) == None
  {
  }

  /** The last save wins. */
  lemma SaveOverwrites(s: State, a1: Str, n1: Str, a2: Str, n2: Str)
    ensures SaveLastPrinter(SaveLastPrinter(s, a1, n1), a2, n2) == SaveLastPrinter(s, a2, n2)
  {
  }

  /** The store survives connect, disconnect and the receiver. */
  lemma PrefsSurviveConnection(s: State, p: Platform, address: Str, o: ConnectOracle, closeThrows: bool, i: Intent)
    ensures Connect(s, p, address, o).state.prefs == s.prefs
    ensures Disconnect(s, closeThrows).0.prefs == s.prefs
    ensures OnReceive(s, p, i).0.prefs == s.prefs
  {
  }

  /** `startScan` reports the first failing check, in the order adapter, enabled, permission. */
  lemma StartScanCheckOrder(s: State, p: Platform, o: ScanOracle)
    ensures var r := StartScan(s, p, o);
      && (r.1 == Reject(BluetoothUnavailable) <==> !p.hasAdapter)
      && (r.1 == Reject(BluetoothDisabled) <==> p.hasAdapter && !p.enabled)
      && (r.1 == Reject(PermissionDenied) <==> p.hasAdapter && p.enabled && !ScanPermission(p))
      && (r.1.Reject? && r.1.code != ScanError ==> r.0 == s)
  {
  }

  /** Pairing a bonded device resolves "already paired" without calling `createBond`. */
  lemma PairBondedDevice(p: Platform, o: PairOracle)
    requires p.hasAdapter && !o.lookupThrows && ConnectPermission(p) && o.bonded
    ensures PairDevice(p, o) == (Resolve(AlreadyPaired), false)
  {
  }

  /** `pairDevice` reports the first failing check, in the order adapter, lookup, permission. */
  lemma PairCheckOrder(p: Platform, o: PairOracle)
    ensures var r := PairDevice(p, o).0;
      && (r == Reject(BluetoothUnavailable) <==> !p.hasAdapter)
      && (p.hasAdapter && o.lookupThrows ==> r == Reject(PairingError))
      && (r.Resolve? ==> PairChecksPass(p, o))
  {
  }

  /**
   * A `stopScan` that resolves leaves nothing for a second one to do: the
   * second resolves too and changes nothing, whatever its cancel does.
   */
  lemma StopScanIdempotent(s: State, p: Platform, c1: bool, c2: bool)
    requires StopScan(s, p, c1).1.Resolve?
    ensures var t := StopScan(s, p, c1).0;
      StopScan(t, p, c2) == (t, Resolve(()))
  {
  }

  /**
   * A scan started and then stopped with the scan permission leaves the
   * receiver unregistered and discovery stopped, unless `cancelDiscovery`
   * throws, in which case the receiver stays registered.
   */
  lemma StartThenStop(s: State, p: Platform, o: ScanOracle, cancelThrows: bool)
    requires StartScan(s, p, o).1.Resolve? && p.scanGranted
    ensures var t := StartScan(s, p, o).0;
      var (u, reply) := StopScan(t, p, cancelThrows);
      && (reply.Resolve? ==> !u.registered && !u.discovering)
      && (reply.Reject? ==> u.registered && u.discovering)
      && u.socket == s.socket && u.connectedAddress == s.connectedAddress
  {
  }

  // ---------------------------------------------------------------------------
  // What isConnected and getConnectedDevice report

  /** After `connect` resolves the module reports itself connected, to the address asked for. */
  lemma ConnectIsReported(s: State, p: Platform, address: Str, o: ConnectOracle, name: Option<Str>)
    requires Connect(s, p, address, o).reply.Resolve?
    ensures var t := Connect(s, p, address, o).state;
      && IsConnected(t)
      && GetConnectedDevice(t, false, name) == Some(DeviceInfo(DisplayName(name), address, false))
  {
  }

  /**
   * A lookup that throws while another device is connected rejects ERROR
   * and forgets the address, but the socket stays connected and the stream
   * stays open: `isConnected` is true while `getConnectedDevice` is null.
   */
  lemma LookupThrowKeepsSocket(s: State, p: Platform, address: Str, o: ConnectOracle, name: Option<Str>)
    requires p.hasAdapter && SocketConnected(s) && s.connectedAddress != Some(address) && o.lookupThrows
    ensures var r := Connect(s, p, address, o);
      && r.reply == Reject(Error)
      && IsConnected(r.state) && r.state.stream == s.stream && r.state.connectedAddress == None
      && GetConnectedDevice(r.state, false, name) == None
  {
  }

  /** After `disconnect` resolves nothing is reported connected, although the address is kept. */
  lemma DisconnectIsReported(s: State, lookupThrows: bool, name: Option<Str>)
    ensures var t := Disconnect(s, false).0;
      && !IsConnected(t)
      && GetConnectedDevice(t, lookupThrows, name) == None
      && t.connectedAddress == s.connectedAddress
  {
  }

  /** After an ACL disconnect of the connected device nothing is reported connected. */
  lemma AclDisconnectIsReported(s: State, p: Platform, d: NativeDevice, lookupThrows: bool, name: Option<Str>)
    requires s.registered && s.connectedAddress == Some(d.address)
    ensures var t := OnReceive(s, p, AclDisconnected(Some(d))).0;
      && !IsConnected(t)
      && GetConnectedDevice(t, lookupThrows, name) == None
  {
  }
}

=== FILE: js_string.dfy ===
/**
 * JavaScript strings and the few JavaScript values the printer compilers read.
 *
 * A JavaScript string is a sequence of UTF-16 code units; `charCodeAt`,
 * `length`, `substring`, `padStart`, `padEnd` and `repeat` all work on code
 * units, so that is what `Str` is. Dafny string literals are turned into
 * code units by `Lit`.
 */
module JsString {

  /** One UTF-16 code unit. */
  type Unit = c: int | 0 <= c < 0x1_0000

  type Str = seq<Unit>

  /** A value of 0..255: a Latin-1 code unit, or one byte on the wire. */
  type Byte = x: int | 0 <= x < 0x100

  /** Every element of an array of numbers is a byte value. */
  predicate AllBytes(arr: seq<int>)
  {
    forall i :: 0 <= i < |arr| ==> 0 <= arr[i] < 0x100
  }

  const SPACE: Unit := 0x20
  const ZERO: Unit := 0x30

  /** The code unit of a character (every character used in this model is ASCII). */
  function CodeOf(c: char): Unit
  {
    if (c as int) < 0x1_0000 then c as int else 0x3F
  }

  /** A Dafny literal as a JavaScript string. */
  function Lit(s: string): (r: Str)
    ensures |r| == |s|
    ensures forall i :: 0 <= i < |s| ==> r[i] == CodeOf(s[i])
  {
    seq(|s|, i requires 0 <= i < |s| => CodeOf(s[i]))
  }

  function Min(a: int, b: int): int { if a <= b then a else b }

  function Max(a: int, b: int): int { if a <= b then b else a }

  /** An index argument of `substring` clamped to `0..|s|`. */
  function Clamp(i: int, len: nat): (r: nat)
    ensures r <= len
  {
    if i < 0 then 0 else if i > len then len else i
  }

  /**
   * `s.substring(start, end)`: both indices are clamped into the string and
   * swapped when `start > end`.
   */
  function Substring(s: Str, start: int, end: int): (r: Str)
    ensures |r| <= |s|
    ensures 0 <= start <= end ==> r == s[Min(start, |s|)..Min(end, |s|)]
  {
    var a := Clamp(start, |s|);
    var b := Clamp(end, |s|);
    if a <= b then s[a..b] else s[b..a]
  }

  /** `substring` does not care about the order of its arguments. */
  lemma SubstringSymmetric(s: Str, a: int, b: int)
    ensures Substring(s, a, b) == Substring(s, b, a)
  {
  }

  /** `s.substring(0, n)` is the longest prefix of `s` of at most `n` code units. */
  lemma SubstringPrefix(s: Str, n: nat)
    ensures |Substring(s, 0, n)| == Min(n, |s|)
    ensures Substring(s, 0, n) == s[..Min(n, |s|)]
    ensures |s| <= n ==> Substring(s, 0, n) == s
  {
  }

  /** `s.repeat(count)`. */
  function Repeat(s: Str, count: nat): (r: Str)
    ensures |r| == |s| * count
  {
    if count == 0 then [] else s + Repeat(s, count - 1)
  }

  /** Unit `i` of copy `j` of the repeated text is unit `i` of the piece. */
  lemma {:induction false} RepeatAt(s: Str, count: nat, j: nat, i: nat)
    requires j < count && i < |s|
    ensures j * |s| + i < |Repeat(s, count)|
    ensures Repeat(s, count)[j * |s| + i] == s[i]
  {
    assert |s| * count == |s| + |s| * (count - 1);
    if j > 0 {
      RepeatAt(s, count - 1, j - 1, i);
      assert j * |s| + i == |s| + ((j - 1) * |s| + i);
    }
  }

  /** Repeating `m + n` times is repeating `m` times, then `n` times. */
  lemma {:induction false} RepeatAppend(s: Str, m: nat, n: nat)
    ensures Repeat(s, m + n) == Repeat(s, m) + Repeat(s, n)
  {
    if m > 0 {
      RepeatAppend(s, m - 1, n);
      RepeatUnfold(s, m + n);
      RepeatUnfold(s, m);
      assert (m + n) - 1 == (m - 1) + n;
      AppendAssoc(s, Repeat(s, m - 1), Repeat(s, n));
    }
  }

  /** One unfolding of `Repeat`. */
  lemma RepeatUnfold(s: Str, count: nat)
    requires count > 0
    ensures Repeat(s, count) == s + Repeat(s, count - 1)
  {
  }

  /** Sequence concatenation regroups. */
  lemma AppendAssoc<T>(a: seq<T>, b: seq<T>, c: seq<T>)
    ensures a + (b + c) == (a + b) + c
  {
  }

  /** `count` copies of one code unit. */
  function Fill(c: Unit, count: nat): (r: Str)
    ensures |r| == count
    ensures forall i :: 0 <= i < count ==> r[i] == c
  {
    seq(count, _ => c)
  }

  /** `[c].repeat(n)` is `n` copies of `c`. */
  lemma {:induction false} RepeatOne(c: Unit, n: nat)
    ensures Repeat([c], n) == Fill(c, n)
  {
    if n > 0 {
      RepeatOne(c, n - 1);
      assert Fill(c, n) == [c] + Fill(c, n - 1);
    }
  }

  /**
   * `s.padEnd(target, fill)` with a one-unit pad string: appends fill units
   * up to `target`; never truncates.
   */
  function PadEnd(s: Str, target: int, fill: Unit): (r: Str)
    ensures |r| == Max(target, |s|)
    ensures r[..|s|] == s
    ensures forall i :: |s| <= i < |r| ==> r[i] == fill
  {
    if target <= |s| then s else s + Fill(fill, target - |s|)
  }

  /**
   * `s.padStart(target, fill)` with a one-unit pad string: prepends fill
   * units up to `target`; never truncates.
   */
  function PadStart(s: Str, target: int, fill: Unit): (r: Str)
    ensures |r| == Max(target, |s|)
    ensures r[|r| - |s|..] == s
    ensures forall i :: 0 <= i < |r| - |s| ==> r[i] == fill
  {
    if target <= |s| then s else Fill(fill, target - |s|) + s
  }

  /** `s.startsWith(p)`. */
  predicate StartsWith(s: Str, p: Str)
  {
    |p| <= |s| && s[..|p|] == p
  }

  /** `p` occurs in `s` at position `k`. */
  predicate OccursAt(s: Str, p: Str, k: int)
  {
    0 <= k && k + |p| <= |s| && s[k..k + |p|] == p
  }

  /** The first position at or after `from` where `p` occurs, or -1. */
  function IndexFrom(s: Str, p: Str, from: nat): (r: int)
    ensures r == -1 || from <= r <= |s| - |p|
    ensures r >= 0 ==> OccursAt(s, p, r)
    ensures r >= 0 ==> forall k :: from <= k < r ==> !OccursAt(s, p, k)
    ensures r == -1 ==> forall k :: from <= k ==> !OccursAt(s, p, k)
    decreases |s| + 1 - from
  {
    if from + |p| > |s| then -1
    else if s[from..from + |p|] == p then from
    else IndexFrom(s, p, from + 1)
  }

  /** `s.indexOf(p)`: the first position where `p` occurs, or -1. */
  function IndexOf(s: Str, p: Str): int
  {
    IndexFrom(s, p, 0)
  }

  /** `s.replace(p, q)` with a string pattern: only the first occurrence is replaced. */
  function ReplaceFirst(s: Str, p: Str, q: Str): Str
  {
    var k := IndexOf(s, p);
    if k < 0 then s else s[..k] + q + s[k + |p|..]
  }

  /** When `s` starts with `p`, replacing `p` by nothing strips that prefix. */
  lemma ReplacePrefix(s: Str, p: Str)
    requires StartsWith(s, p)
    ensures ReplaceFirst(s, p, []) == s[|p|..]
  {
    assert IndexOf(s, p) == 0;
  }

  // ---------------------------------------------------------------------------
  // Decimal rendering of integers (`String(n)` for an integer below 10^21)

  /** 10^21: from here on `String(n)` switches to exponent form. */
  const EXPONENT_LIMIT: int := 1_000_000_000_000_000_000_000

  /** The whole numbers `String` prints as plain decimal digits. */
  type JsInt = n: int | -EXPONENT_LIMIT < n < EXPONENT_LIMIT

  predicate IsDigit(c: Unit) { ZERO <= c <= ZERO + 9 }

  function NatToStr(n: nat): (r: Str)
    ensures 1 <= |r|
    ensures forall i :: 0 <= i < |r| ==> IsDigit(r[i])
    ensures |r| > 1 ==> r[0] != ZERO
    decreases n
  {
    if n < 10 then [ZERO + n] else NatToStr(n / 10) + [ZERO + n % 10]
  }

  /** The value of a string of decimal digits. */
  function DigitsValue(s: Str): nat
    requires forall i :: 0 <= i < |s| ==> IsDigit(s[i])
  {
    if |s| == 0 then 0
    else
      assert IsDigit(s[|s| - 1]);
      DigitsValue(s[..|s| - 1]) * 10 + (s[|s| - 1] - ZERO)
  }

  /** Reading back the rendered digits gives the number again. */
  lemma {:induction false} NatToStrRoundTrip(n: nat)
    ensures DigitsValue(NatToStr(n)) == n
    decreases n
  {
    if n >= 10 {
      NatToStrRoundTrip(n / 10);
      var s := NatToStr(n);
      assert s[..|s| - 1] == NatToStr(n / 10);
    }
  }

  function Pow10(k: nat): (r: nat)
    ensures r >= 1
  {
    if k == 0 then 1 else 10 * Pow10(k - 1)
  }

  /** Powers of ten multiply by adding exponents. */
  lemma {:induction false} Pow10Add(a: nat, b: nat)
    ensures Pow10(a + b) == Pow10(a) * Pow10(b)
    decreases a
  {
    if a > 0 {
      Pow10Add(a - 1, b);
      assert Pow10(a + b) == 10 * Pow10(a - 1 + b);
    }
  }

  /** 10^21 is the exponent-form limit. */
  lemma Pow10Limit()
    ensures Pow10(21) == EXPONENT_LIMIT
  {
    assert Pow10(3) == 1000;
    Pow10Add(3, 3);
    Pow10Add(6, 6);
    Pow10Add(12, 6);
    Pow10Add(18, 3);
  }

  /** A number below 10^k has at most k digits. */
  lemma {:induction false} NatToStrDigits(n: nat, k: nat)
    requires 1 <= k && n < Pow10(k)
    ensures |NatToStr(n)| <= k
    decreases k
  {
    if n >= 10 {
      assert Pow10(1) == 10;
      assert n / 10 < Pow10(k - 1);
      NatToStrDigits(n / 10, k - 1);
    }
  }

  /** `String(n)`: an optional minus sign and at most 21 digits. */
  function IntToStr(n: JsInt): (r: Str)
    ensures 1 <= |r| <= 22
    ensures n < 0 <==> r[0] == '-' as int
  {
    Pow10Limit();
    NatToStrDigits(if n < 0 then -n else n, 21);
    if n < 0 then Lit("-") + NatToStr(-n) else NatToStr(n)
  }

  // ---------------------------------------------------------------------------
  // JavaScript values

  /**
   * The primitive JavaScript values a document field may hold. Numbers are
   * whole and below 10^21 in magnitude, the range in which `String` prints
   * plain decimal digits.
   */
  datatype JsValue = Undefined | Null | Bool(b: bool) | Num(n: JsInt) | JsStr(s: Str)

  /** JavaScript truthiness (`if (v)`, `v || d`, `filter(Boolean)`). */
  predicate Truthy(v: JsValue)
  {
    match v
    case Undefined => false
    case Null => false
    case Bool(b) => b
    case Num(n) => n != 0
    case JsStr(s) => |s| > 0
  }

  /** `String(v)`, which is also what a template literal interpolates. */
  function ToStr(v: JsValue): (r: Str)
    ensures v.JsStr? ==> r == v.s
    ensures !v.JsStr? ==> |r| > 0
  {
    match v
    case Undefined => Lit("undefined")
    case Null => Lit("null")
    case Bool(b) => if b then Lit("true") else Lit("false")
    case Num(n) => IntToStr(n)
    case JsStr(s) => s
  }

  /** A truthy value never renders as the empty string. */
  lemma TruthyRendersNonEmpty(v: JsValue)
    requires Truthy(v)
    ensures |ToStr(v)| > 0
  {
  }

  /** `vs.filter(Boolean)`. */
  function FilterTruthy(vs: seq<JsValue>): (r: seq<JsValue>)
    ensures |r| <= |vs|
    ensures forall i :: 0 <= i < |r| ==> Truthy(r[i]) && r[i] in vs
    ensures forall v :: v in vs && Truthy(v) ==> v in r
  {
    if |vs| == 0 then []
    else
      var rest := FilterTruthy(vs[1..]);
      assert forall v :: v in vs ==> v == vs[0] || v in vs[1..];
      if Truthy(vs[0]) then [vs[0]] + rest else rest
  }

  /** `parts.join(sep)` over values already filtered (each part rendered with `String`). */
  function Join(parts: seq<JsValue>, sep: Str): Str
  {
    if |parts| == 0 then []
    else if |parts| == 1 then ToStr(parts[0])
    else ToStr(parts[0]) + sep + Join(parts[1..], sep)
  }

  /** One value survives the filter exactly when it is truthy. */
  lemma FilterTruthyOne(v: JsValue)
    ensures FilterTruthy([v]) == if Truthy(v) then [v] else []
  {
    assert [v][1..] == [];
  }

  /** Filtering a concatenation filters each part and keeps their order. */
  lemma {:induction false} FilterTruthyAppend(a: seq<JsValue>, b: seq<JsValue>)
    ensures FilterTruthy(a + b) == FilterTruthy(a) + FilterTruthy(b)
  {
    if |a| > 0 {
      assert (a + b)[0] == a[0];
      assert (a + b)[1..] == a[1..] + b;
      FilterTruthyAppend(a[1..], b);
    } else {
      assert a + b == b;
    }
  }

  /** `vs.filter(Boolean).join(sep)`. */
  function JoinTruthy(vs: seq<JsValue>, sep: Str): Str
  {
    Join(FilterTruthy(vs), sep)
  }

  /** The joined string is empty exactly when no value is truthy. */
  lemma JoinTruthyEmpty(vs: seq<JsValue>, sep: Str)
    ensures JoinTruthy(vs, sep) == [] <==> forall i :: 0 <= i < |vs| ==> !Truthy(vs[i])
  {
    var f := FilterTruthy(vs);
    if |f| > 0 {
      TruthyRendersNonEmpty(f[0]);
      assert f[0] in vs;
    } else {
      forall i | 0 <= i < |vs|
        ensures !Truthy(vs[i])
      {
        assert vs[i] in vs;
      }
    }
  }

  /** Two truthy values joined are the two renderings around the separator. */
  lemma JoinTwo(a: JsValue, b: JsValue, sep: Str)
    ensures Truthy(a) && Truthy(b) ==> JoinTruthy([a, b], sep) == ToStr(a) + sep + ToStr(b)
    ensures Truthy(a) && !Truthy(b) ==> JoinTruthy([a, b], sep) == ToStr(a)
    ensures !Truthy(a) && Truthy(b) ==> JoinTruthy([a, b], sep) == ToStr(b)
  {
    assert [a, b][1..] == [b];
    assert [b][1..] == [];
    assert FilterTruthy([b]) == if Truthy(b) then [b] else [];
    if Truthy(a) && Truthy(b) {
      assert FilterTruthy([a, b]) == [a, b];
      assert Join([a, b], sep) == ToStr(a) + sep + Join([b], sep);
    }
  }
}

=== FILE: printer_properties.dfy ===
/**
 * Properties of the printer byte-code compilers: every byte value stays a
 * byte except the Code 128 length byte of a long SKU, the item column
 * layout, the per-item composition of the item blocks, the independence of
 * the kitchen ticket from prices, and the placement of the barcode data.
 */
module PrinterProperties {
  import opened Wrappers
  import opened JsString
  import opened PrinterService

  // ---------------------------------------------------------------------------
  // stringToBytes

  /** Latin-1 text (every unit at most 0xFF) passes through unchanged. */
  lemma StringToBytesLatin1(s: Str)
    requires forall i :: 0 <= i < |s| ==> s[i] <= 0xFF
    ensures StringToBytes(s) == s
  {
  }

  /** A unit above 0xFF always becomes `?`, so text outside Latin-1 cannot be recovered. */
  lemma StringToBytesLossy(s: Str)
    requires exists i :: 0 <= i < |s| && s[i] > 0xFF
    ensures StringToBytes(s) != s
  {
    var i :| 0 <= i < |s| && s[i] > 0xFF;
    assert StringToBytes(s)[i] == 0x3F;
  }

  /** `stringToBytes` of a concatenation is the concatenation of the results. */
  lemma StringToBytesConcat(a: Str, b: Str)
    ensures StringToBytes(a + b) == StringToBytes(a) + StringToBytes(b)
  {
    assert forall i :: 0 <= i < |a| ==> (a + b)[i] == a[i];
    assert forall i :: |a| <= i < |a| + |b| ==> (a + b)[i] == b[i - |a|];
  }

  // ---------------------------------------------------------------------------
  // The builder buffer

  /** Appending two groups of segments appends their buffers. */
  lemma {:induction false} ConcatAppend<T>(a: seq<seq<T>>, b: seq<seq<T>>)
    ensures Concat(a + b) == Concat(a) + Concat(b)
  {
    if |a| > 0 {
      assert (a + b)[1..] == a[1..] + b;
      ConcatAppend(a[1..], b);
    } else {
      assert a + b == b;
    }
  }

  /** One segment on its own is its own buffer. */
  lemma ConcatOne<T>(x: seq<T>)
    ensures Concat([x]) == x
  {
    assert [x][1..] == [];
  }

  /** Adding the segments one by one to a fresh builder yields their concatenation. */
  lemma {:induction false} BuildIsConcat(segs: seq<seq<int>>)
    ensures Build(segs) == Concat(segs)
  {
    if |segs| > 0 {
      var n := |segs| - 1;
      BuildIsConcat(segs[..n]);
      assert segs == segs[..n] + [segs[n]];
      ConcatAppend(segs[..n], [segs[n]]);
      ConcatOne(segs[n]);
    }
  }

  /** Adding two arrays in turn pushes the same values as adding their concatenation. */
  lemma AddRegroups(b: Buffer, x: seq<int>, y: seq<int>)
    ensures Add(Add(b, x), y) == Add(b, x + y)
  {
  }

  /** `add` of a single number pushes what `add` of a one-element array pushes. */
  lemma AddOneIsAdd(b: Buffer, x: int)
    ensures AddOne(b, x) == Add(b, [x])
  {
  }

  /** `newLine()` is `add(LF)`. */
  lemma NewLineIsAddLf(b: Buffer)
    ensures NewLine(b) == AddOne(b, LF)
  {
  }

  /** `textLine(v)` is `text(v)` followed by `newLine()`, and adds exactly `ValueLine(v)`. */
  lemma TextLineIsTextThenNewLine(b: Buffer, v: JsValue)
    requires HasLength(v)
    ensures TextLine(b, v) == NewLine(Text(b, v))
    ensures TextLine(b, v) == Add(b, ValueLine(v))
  {
  }

  /** `textLine` of a string adds exactly the segment `StrLine` of that string. */
  lemma TextLineOfString(b: Buffer, s: Str)
    ensures TextLine(b, JsStr(s)) == Add(b, StrLine(s))
  {
  }

  /**
   * A builder filled with the opening commands, then the segments, then the
   * closing commands, holds the framed document.
   */
  lemma BuildFramed(head: seq<seq<int>>, segs: seq<seq<int>>, tail: seq<seq<int>>)
    ensures Build(head + segs + tail) == Framed(Concat(head), Concat(segs), Concat(tail))
  {
    BuildIsConcat(head + segs + tail);
    ConcatAppend(head + segs, tail);
    ConcatAppend(head, segs);
  }

  /** Two commands in a row. */
  lemma ConcatTwo<T>(a: seq<T>, b: seq<T>)
    ensures Concat([a, b]) == a + b
  {
    assert [a, b][1..] == [b];
    ConcatOne(b);
  }

  /** A builder opened with two commands and closed with `tail`. */
  lemma BuildOpenedWithTwo(h1: seq<int>, h2: seq<int>, segs: seq<seq<int>>, tail: seq<seq<int>>)
    ensures Build([h1, h2] + segs + tail) == Framed(h1 + h2, Concat(segs), Concat(tail))
  {
    BuildFramed([h1, h2], segs, tail);
    ConcatTwo(h1, h2);
  }

  /** Reading byte segments as segments of numbers does not change their concatenation. */
  lemma {:induction false} ConcatOfBytes(segs: seq<seq<Byte>>)
    ensures Concat<Byte>(segs) == Concat<int>(segs)
  {
    if |segs| > 0 {
      ConcatOfBytes(segs[1..]);
    }
  }

  /**
   * `generateInvoiceCommands` is a builder that adds INIT and ALIGN_CENTER,
   * the invoice segments in call order, then three feed lines and the cut.
   */
  lemma InvoiceIsBuilt(d: Doc, f: Formatters)
    ensures Invoice(d, f) == Build([INIT, ALIGN_CENTER] + InvoiceSegments(d, f) + [FeedLines(3), CUT])
  {
    TicketIsBuilt(InvoiceSegments(d, f));
  }

  /** `generateKOTCommands` is a builder with the same opening and closing as the invoice. */
  lemma KotIsBuilt(d: Doc, f: Formatters)
    ensures Kot(d, f) == Build([INIT, ALIGN_CENTER] + KotSegments(d, f) + [FeedLines(3), CUT])
  {
    TicketIsBuilt(KotSegments(d, f));
  }

  /** A receipt-printer document: opened with INIT and ALIGN_CENTER, closed with three feeds and the cut. */
  lemma TicketIsBuilt(segs: seq<seq<Byte>>)
    ensures Framed(INIT + ALIGN_CENTER, Concat(segs), FeedLines(3) + CUT)
         == Build([INIT, ALIGN_CENTER] + segs + [FeedLines(3), CUT])
  {
    var ints: seq<seq<int>> := segs;
    BuildOpenedWithTwo(INIT, ALIGN_CENTER, ints, [FeedLines(3), CUT]);
    ConcatTwo<int>(FeedLines(3), CUT);
    ConcatOfBytes(segs);
    assert Framed<Byte>(INIT + ALIGN_CENTER, Concat(segs), FeedLines(3) + CUT)
        == Framed<int>(INIT + ALIGN_CENTER, Concat<int>(ints), FeedLines(3) + CUT);
  }

  /** `generateBarcodeTagCommands` is a builder that ends with three feed lines and no cut. */
  lemma BarcodeTagIsBuilt(d: Doc, f: Formatters)
    ensures BarcodeTag(d, f) == Build([INIT, ALIGN_CENTER] + BarcodeSegments(d, f) + [FeedLines(3)])
  {
    BuildOpenedWithTwo(INIT, ALIGN_CENTER, BarcodeSegments(d, f), [FeedLines(3)]);
    ConcatOne(FeedLines(3));
  }

  /** Mapping a concatenation of lists maps each list, in order. */
  lemma {:induction false} ConcatMapAppend<A, T>(a: seq<A>, b: seq<A>, g: A -> seq<T>)
    ensures ConcatMap(a + b, g) == ConcatMap(a, g) + ConcatMap(b, g)
  {
    if |a| > 0 {
      assert (a + b)[1..] == a[1..] + b;
      ConcatMapAppend(a[1..], b, g);
    } else {
      assert a + b == b;
    }
  }

  /** Lists whose elements map to the same bytes, position by position, map to the same block. */
  lemma {:induction false} ConcatMapPointwise<A, T>(a: seq<A>, b: seq<A>, g: A -> seq<T>)
    requires |a| == |b| && forall i :: 0 <= i < |a| ==> g(a[i]) == g(b[i])
    ensures ConcatMap(a, g) == ConcatMap(b, g)
  {
    if |a| > 0 {
      assert forall i :: 0 <= i < |a| - 1 ==> a[1..][i] == a[i + 1] && b[1..][i] == b[i + 1];
      ConcatMapPointwise(a[1..], b[1..], g);
    }
  }

  /** The `n` elements of `s` starting at `k`. */
  function Window<T>(s: seq<T>, k: nat, n: nat): seq<T>
    requires k + n <= |s|
  {
    s[k..k + n]
  }

  /** `part` occurs as a contiguous block of `whole`. */
  predicate Shows<T(==)>(whole: seq<T>, part: seq<T>)
  {
    exists k: nat :: k + |part| <= |whole| && Window(whole, k, |part|) == part
  }

  /** The middle part of a document laid out as head, a, y, c, tail occurs in it. */
  lemma MiddleShows<T>(head: seq<T>, a: seq<T>, y: seq<T>, c: seq<T>, tail: seq<T>)
    ensures Shows(head + (a + y + c) + tail, y)
  {
    var r := head + (a + y + c) + tail;
    assert r == (head + a) + y + (c + tail);
    assert r[|head + a|..|head + a| + |y|] == y;
    assert Window(r, |head + a|, |y|) == y;
  }

  /** A block of a block of a document is a block of the document. */
  lemma ShowsTrans<T>(a: seq<T>, b: seq<T>, c: seq<T>)
    requires Shows(a, b) && Shows(b, c)
    ensures Shows(a, c)
  {
    var k1: nat :| k1 + |b| <= |a| && Window(a, k1, |b|) == b;
    var k2: nat :| k2 + |c| <= |b| && Window(b, k2, |c|) == c;
    forall j | 0 <= j < |c|
      ensures a[k1 + k2 + j] == c[j]
    {
      assert Window(a, k1, |b|)[k2 + j] == b[k2 + j];
      assert Window(b, k2, |c|)[j] == c[j];
    }
    assert Window(a, k1 + k2, |c|) == c;
  }

  /** A segment of a framed document occurs in it, unchanged and contiguous. */
  lemma SegmentShows<T>(head: seq<T>, pre: seq<seq<T>>, x: seq<T>, post: seq<seq<T>>, tail: seq<T>)
    ensures Shows(Framed(head, Concat(pre + [x] + post), tail), x)
  {
    ConcatAppend(pre + [x], post);
    ConcatAppend(pre, [x]);
    assert [x][1..] == [];
    assert Concat([x]) == x;
    assert Concat(pre + [x] + post) == Concat(pre) + x + Concat(post);
    MiddleShows(head, Concat(pre), x, Concat(post), tail);
  }

  // ---------------------------------------------------------------------------
  // Item blocks

  /** The invoice item block of two lists is the blocks of each, in order. */
  lemma InvoiceItemsAppend(a: seq<Item>, b: seq<Item>, f: Formatters)
    ensures InvoiceItems(a + b, f) == InvoiceItems(a, f) + InvoiceItems(b, f)
  {
    ConcatMapAppend(a, b, InvoiceItemWith(f));
  }

  /** The kitchen item block of two lists is the blocks of each, in order. */
  lemma KotItemsAppend(a: seq<Item>, b: seq<Item>)
    ensures KotItems(a + b) == KotItems(a) + KotItems(b)
  {
    ConcatMapAppend(a, b, KotItem);
  }

  /**
   * The width of an invoice item row: 16 units of name, a space, a quantity
   * column of at least 3 units, a space and a total column of at least 10;
   * 31 units, within the 32-column paper, whenever the quantity has at most
   * 3 units and the total at most 10.
   */
  lemma ItemColumnsWidth(name: Str, qty: Str, total: Str)
    ensures |ItemColumns(name, qty, total)| == 18 + Max(3, |qty|) + Max(10, |total|)
    ensures |qty| <= 3 && |total| <= 10 ==> |ItemColumns(name, qty, total)| == 31
  {
    NameColumnLayout(name);
  }

  /** The name column: the first 16 units of the name, then spaces up to and including unit 16. */
  lemma ItemColumnsName(name: Str, qty: Str, total: Str)
    ensures var r := ItemColumns(name, qty, total);
      var n := Min(16, |name|);
      && 16 < |r|
      && r[..n] == name[..n]
      && forall i :: n <= i <= 16 ==> r[i] == SPACE
  {
    var n := Min(16, |name|);
    var c1 := NameColumn(name);
    NameColumnLayout(name);
    var head := c1 + [SPACE];
    var r := ItemColumns(name, qty, total);
    ItemColumnsHead(name, qty, total);
    forall i | 0 <= i < 17
      ensures r[i] == head[i]
    {
      assert r[i] == r[..17][i];
    }
    assert r[..n] == head[..n];
  }

  /** The name column holds the first 16 units of the name and is padded with spaces. */
  lemma NameColumnLayout(name: Str)
    ensures var c1 := NameColumn(name);
      var n := Min(16, |name|);
      && |c1| == 16 && c1[..n] == name[..n]
      && forall i :: n <= i < 16 ==> c1[i] == SPACE
  {
    SubstringPrefix(name, 16);
  }

  /** The first 17 units of a row are the name column and a space. */
  lemma ItemColumnsHead(name: Str, qty: Str, total: Str)
    ensures |ItemColumns(name, qty, total)| >= 17
    ensures ItemColumns(name, qty, total)[..17] == NameColumn(name) + [SPACE]
  {
    NameColumnLayout(name);
    var head := NameColumn(name) + [SPACE];
    var c2 := PadStart(qty, 3, SPACE);
    PrefixKept(head + c2 + [SPACE], PadStart(total, 10, SPACE), 17);
    PrefixKept(head + c2, [SPACE], 17);
    PrefixKept(head, c2, 17);
  }

  /** Appending never changes a prefix. */
  lemma PrefixKept<T>(a: seq<T>, b: seq<T>, n: nat)
    requires n <= |a|
    ensures (a + b)[..n] == a[..n]
  {
  }

  /** The quantity right-aligned in its column after the name column and a space. */
  lemma ItemColumnsQuantity(name: Str, qty: Str, total: Str)
    ensures var r := ItemColumns(name, qty, total);
      var q := 17 + Max(3, |qty|);
      && q < |r|
      && r[q - |qty|..q] == qty
      && r[q] == SPACE
  {
    NameColumnLayout(name);
    var c2 := PadStart(qty, 3, SPACE);
    ColumnThenSpace(NameColumn(name) + [SPACE], c2, SPACE, PadStart(total, 10, SPACE), |qty|);
  }

  /** In `head + c + [sp] + rest`, column `c` ends right before the separator `sp`. */
  lemma ColumnThenSpace<T>(head: seq<T>, c: seq<T>, sp: T, rest: seq<T>, m: nat)
    requires m <= |c|
    ensures var r := head + c + [sp] + rest;
      var q := |head| + |c|;
      && q < |r|
      && r[q - m..q] == c[|c| - m..]
      && r[q] == sp
  {
    var r := head + c + [sp] + rest;
    var q := |head| + |c|;
    assert r == (head + c) + ([sp] + rest);
    PrefixKept(head + c, [sp] + rest, q);
    SuffixOfAppend(head, c, m);
    assert r[q - m..q] == r[..q][q - m..q];
  }

  /** The last `m` elements of `a + b` are the last `m` of `b`. */
  lemma SuffixOfAppend<T>(a: seq<T>, b: seq<T>, m: nat)
    requires m <= |b|
    ensures (a + b)[|a| + |b| - m..] == b[|b| - m..]
  {
  }

  /** The total right-aligned at the end of the row. */
  lemma ItemColumnsTotal(name: Str, qty: Str, total: Str)
    ensures var r := ItemColumns(name, qty, total);
      |total| <= |r| && r[|r| - |total|..] == total
  {
    var c3 := PadStart(total, 10, SPACE);
    var front := NameColumn(name) + [SPACE] + PadStart(qty, 3, SPACE) + [SPACE];
    assert ItemColumns(name, qty, total) == front + c3;
    assert (front + c3)[|front| + |c3| - |total|..] == c3[|c3| - |total|..];
  }

  /** An invoice item row is the item's three cells laid out by `ItemColumns`. */
  lemma ItemRowLayout(it: Item, f: Formatters)
    ensures |ToStr(it.quantity)| <= 3 && |f.currency(it.subtotal)| <= 10 ==> |ItemRow(it, f)| == 31
    ensures ItemRow(it, f)[..Min(16, |it.productName|)] == it.productName[..Min(16, |it.productName|)]
  {
    ItemColumnsWidth(it.productName, ToStr(it.quantity), f.currency(it.subtotal));
    ItemColumnsName(it.productName, ToStr(it.quantity), f.currency(it.subtotal));
  }

  // ---------------------------------------------------------------------------
  // Barcode tag

  /** A four-segment buffer is the four segments in order. */
  lemma Concat4<T>(segs: seq<seq<T>>)
    requires |segs| == 4
    ensures Concat(segs) == segs[0] + segs[1] + segs[2] + segs[3]
  {
    assert Concat(segs[3..]) == segs[3] + Concat(segs[4..]);
    assert Concat(segs[2..]) == segs[2] + Concat(segs[3..]);
    assert Concat(segs[1..]) == segs[1] + Concat(segs[2..]);
  }

  /** The SKU is a string too long for the one-byte Code 128 length field. */
  predicate SkuTooLong(d: Doc)
  {
    Truthy(d.sku) && |ValueToBytes(d.sku)| > 0xFF
  }

  /** Where the `GS k` command of the barcode starts in the tag. */
  function BarcodeCommandOffset(d: Doc, f: Formatters): nat
  {
    var segs := BarcodeSegments(d, f);
    |INIT + ALIGN_CENTER| + |segs[0]| + |segs[1]| + 1 + |BARCODE_SETUP|
  }

  /** A concatenation holds only byte values exactly when both parts do. */
  lemma AllBytesAppend(a: seq<int>, b: seq<int>)
    ensures AllBytes(a + b) <==> AllBytes(a) && AllBytes(b)
  {
    if AllBytes(a + b) {
      assert forall i :: 0 <= i < |a| ==> a[i] == (a + b)[i];
      assert forall i :: 0 <= i < |b| ==> b[i] == (a + b)[|a| + i];
    }
  }

  /** A sequence of `Byte`s holds only byte values. */
  lemma ByteSeqAllBytes(s: seq<Byte>)
    ensures AllBytes(s)
  {
  }

  /** The tag with its segments named: opening, header, shop, barcode block, price, closing feed. */
  function TagLayout(s0: seq<int>, s1: seq<int>, data: seq<Byte>, s3: seq<int>): seq<int>
  {
    Framed(INIT + ALIGN_CENTER, Concat([s0, s1, BarcodeBlock(data), s3]), FeedLines(3))
  }

  /**
   * Whatever the header, shop and price segments, the barcode command and
   * its data sit right after those two segments, the line feed and the
   * setup commands.
   */
  lemma TagLayoutPlacement(s0: seq<int>, s1: seq<int>, data: seq<Byte>, s3: seq<int>)
    ensures var r := TagLayout(s0, s1, data, s3);
      var pre := (INIT + ALIGN_CENTER) + s0 + s1 + ([LF] + BARCODE_SETUP);
      r == pre + (BarcodeCommand(|data|) + data) + ([LF] + s3 + FeedLines(3))
  {
    Concat4([s0, s1, BarcodeBlock(data), s3]);
  }

  /** The length byte of the barcode command sits at offset 3 of the command, after the setup. */
  lemma TagLayoutLengthByte(s0: seq<int>, s1: seq<int>, data: seq<Byte>, s3: seq<int>)
    ensures var k := |INIT + ALIGN_CENTER| + |s0| + |s1| + 1 + |BARCODE_SETUP|;
      k + 3 < |TagLayout(s0, s1, data, s3)| && TagLayout(s0, s1, data, s3)[k + 3] == |data|
  {
    TagLayoutPlacement(s0, s1, data, s3);
    var pre := (INIT + ALIGN_CENTER) + s0 + s1 + ([LF] + BARCODE_SETUP);
    var mid := BarcodeCommand(|data|) + data;
    var post := [LF] + s3 + FeedLines(3);
    assert (pre + mid + post)[|pre| + 3] == mid[3];
  }

  /** With byte-valued other segments, the tag is byte-valued exactly when the data length fits a byte. */
  lemma TagLayoutAllBytes(s0: seq<int>, s1: seq<int>, data: seq<Byte>, s3: seq<int>)
    requires AllBytes(s0) && AllBytes(s1) && AllBytes(s3)
    ensures AllBytes(TagLayout(s0, s1, data, s3)) <==> |data| <= 0xFF
  {
    TagLayoutPlacement(s0, s1, data, s3);
    var pre := (INIT + ALIGN_CENTER) + s0 + s1 + ([LF] + BARCODE_SETUP);
    var mid := BarcodeCommand(|data|) + data;
    var post := [LF] + s3 + FeedLines(3);
    AllBytesAppend(pre + mid, post);
    AllBytesAppend(pre, mid);
    AllBytesAppend(BarcodeCommand(|data|), data);
    AllBytesAppend((INIT + ALIGN_CENTER) + s0, s1);
    AllBytesAppend(INIT + ALIGN_CENTER, s0);
    AllBytesAppend((INIT + ALIGN_CENTER) + s0 + s1, [LF] + BARCODE_SETUP);
    AllBytesAppend([LF] + s3, FeedLines(3));
    AllBytesAppend([LF], s3);
    assert AllBytes(data) && AllBytes(INIT + ALIGN_CENTER) && AllBytes([LF] + BARCODE_SETUP);
    assert AllBytes([LF]) && AllBytes(FeedLines(3));
    assert BarcodeCommand(|data|)[3] == |data|;
  }

  /**
   * A truthy SKU appears in the tag as `GS k 73 n` followed by exactly the
   * `n` bytes `stringToBytes(sku)` produces.
   */
  lemma BarcodeDataPlacement(d: Doc, f: Formatters)
    requires Truthy(d.sku)
    ensures var data := ValueToBytes(d.sku);
      var k := BarcodeCommandOffset(d, f);
      && k + 4 + |data| <= |BarcodeTag(d, f)|
      && BarcodeTag(d, f)[k..k + 4 + |data|] == BarcodeCommand(|data|) + data
  {
    var segs := BarcodeSegments(d, f);
    var data := ValueToBytes(d.sku);
    assert segs == [segs[0], segs[1], BarcodeBlock(data), segs[3]];
    TagLayoutPlacement(segs[0], segs[1], data, segs[3]);
    var pre := (INIT + ALIGN_CENTER) + segs[0] + segs[1] + ([LF] + BARCODE_SETUP);
    assert |pre| == BarcodeCommandOffset(d, f);
  }

  /**
   * The barcode tag holds only byte values exactly when the SKU fits the
   * length byte: the compiler pushes `barcodeBytes.length` unchecked.
   */
  lemma BarcodeAllBytes(d: Doc, f: Formatters)
    ensures AllBytes(BarcodeTag(d, f)) <==> !SkuTooLong(d)
  {
    var segs := BarcodeSegments(d, f);
    BarcodeTextSegmentsBytes(d, f);
    if Truthy(d.sku) {
      BarcodeTagIsLayout(d, f);
      TagLayoutAllBytes(segs[0], segs[1], ValueToBytes(d.sku), segs[3]);
      assert AllBytes(BarcodeTag(d, f)) <==> |ValueToBytes(d.sku)| <= 0xFF;
    } else {
      Concat4(segs);
      var body := Concat(segs);
      AllBytesAppend(segs[0] + segs[1] + segs[2], segs[3]);
      AllBytesAppend(segs[0] + segs[1], segs[2]);
      AllBytesAppend(segs[0], segs[1]);
      AllBytesAppend(INIT + ALIGN_CENTER, body);
      AllBytesAppend(INIT + ALIGN_CENTER + body, FeedLines(3));
      ByteSeqAllBytes(INIT + ALIGN_CENTER);
      ByteSeqAllBytes(FeedLines(3));
    }
  }

  /** The header, shop and price segments of a tag hold only byte values. */
  lemma BarcodeTextSegmentsBytes(d: Doc, f: Formatters)
    ensures var segs := BarcodeSegments(d, f);
      AllBytes(segs[0]) && AllBytes(segs[1]) && AllBytes(segs[3])
  {
  }

  /** A tag with a truthy SKU is laid out around the barcode block of that SKU. */
  lemma BarcodeTagIsLayout(d: Doc, f: Formatters)
    requires Truthy(d.sku)
    ensures var segs := BarcodeSegments(d, f);
      BarcodeTag(d, f) == TagLayout(segs[0], segs[1], ValueToBytes(d.sku), segs[3])
  {
    var segs := BarcodeSegments(d, f);
    assert segs == [segs[0], segs[1], BarcodeBlock(ValueToBytes(d.sku)), segs[3]];
  }

  /** Without a truthy SKU the tag carries no barcode block. */
  lemma BarcodeWithoutSku(d: Doc, f: Formatters)
    requires !Truthy(d.sku)
    ensures BarcodeSegments(d, f)[2] == []
    ensures |BarcodeTag(d, f)| == 8 + |BarcodeSegments(d, f)[0]| + |BarcodeSegments(d, f)[1]| + |BarcodeSegments(d, f)[3]|
  {
    Concat4(BarcodeSegments(d, f));
  }

  /**
   * The barcode header line is printed exactly when the brand or the
   * category is truthy, and it is never wider than the 32-column paper.
   */
  lemma BarcodeHeaderShown(d: Doc)
    ensures |BarcodeHeader(d)| > 0 <==> Truthy(d.brandName) || Truthy(d.categoryName)
    ensures |Substring(BarcodeHeader(d), 0, 32)| <= 32
  {
    JoinTruthyEmpty([d.brandName, d.categoryName], Lit(" / "));
    SubstringPrefix(BarcodeHeader(d), 32);
  }

  // ---------------------------------------------------------------------------
  // What the documents print

  /** An invoice prints the rows of all its items, in order, as one block. */
  lemma InvoiceShowsItems(d: Doc, f: Formatters)
    requires d.items.Some?
    ensures Shows(Invoice(d, f), InvoiceItems(d.items.value, f))
  {
    SegmentShows(INIT + ALIGN_CENTER, InvoiceHead(d, f), InvoiceItemBlock(d, f), InvoiceFoot(d, f), FeedLines(3) + CUT);
  }

  /** A block of the second part of a concatenation is a block of the whole. */
  lemma ShowsAfter<T>(p: seq<T>, q: seq<T>, c: seq<T>)
    requires Shows(q, c)
    ensures Shows(p + q, c)
  {
    var k: nat :| k + |c| <= |q| && Window(q, k, |c|) == c;
    assert Window(p + q, |p| + k, |c|) == Window(q, k, |c|);
  }

  /** A block of the first part of a concatenation is a block of the whole. */
  lemma ShowsBefore<T>(p: seq<T>, q: seq<T>, c: seq<T>)
    requires Shows(p, c)
    ensures Shows(p + q, c)
  {
    var k: nat :| k + |c| <= |p| && Window(p, k, |c|) == c;
    assert Window(p + q, k, |c|) == Window(p, k, |c|);
  }

  /** A sequence is a block of itself. */
  lemma ShowsSelf<T>(c: seq<T>)
    ensures Shows(c, c)
  {
    assert Window(c, 0, |c|) == c;
  }

  /** The bytes of every element occur, contiguous, in the mapped block. */
  lemma {:induction false} ConcatMapShows<A, T>(xs: seq<A>, g: A -> seq<T>, i: nat)
    requires i < |xs|
    ensures Shows(ConcatMap(xs, g), g(xs[i]))
    decreases i
  {
    if i == 0 {
      ShowsSelf(g(xs[0]));
      ShowsBefore(g(xs[0]), ConcatMap(xs[1..], g), g(xs[0]));
    } else {
      ConcatMapShows(xs[1..], g, i - 1);
      assert xs[1..][i - 1] == xs[i];
      ShowsAfter(g(xs[0]), ConcatMap(xs[1..], g), g(xs[i]));
    }
  }

  /** The bytes of one invoice item begin with its row line. */
  lemma InvoiceItemShowsRow(it: Item, f: Formatters)
    ensures Shows(InvoiceItem(it, f), StrLine(ItemRow(it, f)))
  {
    var row := StrLine(ItemRow(it, f));
    ShowsSelf(row);
    ShowsBefore(row, When(Truthy(it.details), StrLine(Lit("  ") + ToStr(it.details))), row);
  }

  /** The invoice item block holds the bytes of every item. */
  lemma InvoiceItemsShowItem(xs: seq<Item>, f: Formatters, i: nat)
    requires i < |xs|
    ensures Shows(InvoiceItems(xs, f), InvoiceItem(xs[i], f))
  {
    ConcatMapShows(xs, InvoiceItemWith(f), i);
  }

  /** Every item of an invoice gets its bytes printed, whatever its position in the list. */
  lemma InvoiceShowsItem(d: Doc, f: Formatters, i: nat)
    requires d.items.Some? && i < |d.items.value|
    ensures Shows(Invoice(d, f), InvoiceItem(d.items.value[i], f))
  {
    InvoiceItemsShowItem(d.items.value, f, i);
    InvoiceShowsItems(d, f);
    ShowsTrans(Invoice(d, f), InvoiceItems(d.items.value, f), InvoiceItem(d.items.value[i], f));
  }

  /** Every item of an invoice gets its own row line, whatever its position in the list. */
  lemma InvoiceShowsEachRow(d: Doc, f: Formatters, i: nat)
    requires d.items.Some? && i < |d.items.value|
    ensures Shows(Invoice(d, f), StrLine(ItemRow(d.items.value[i], f)))
  {
    var it := d.items.value[i];
    InvoiceShowsItem(d, f, i);
    InvoiceItemShowsRow(it, f);
    ShowsTrans(Invoice(d, f), InvoiceItem(it, f), StrLine(ItemRow(it, f)));
  }

  /** The line `  ${details}` an invoice prints under an item's row. */
  function InvoiceDetailsLine(it: Item): seq<Byte>
  {
    StrLine(Lit("  ") + ToStr(it.details))
  }

  /** An invoice item is its row line, followed by a details line exactly when the details are truthy. */
  lemma InvoiceItemLayout(it: Item, f: Formatters)
    ensures Truthy(it.details) ==> InvoiceItem(it, f) == StrLine(ItemRow(it, f)) + InvoiceDetailsLine(it)
    ensures !Truthy(it.details) ==> InvoiceItem(it, f) == StrLine(ItemRow(it, f))
  {
  }

  /** An item with truthy details has its details line printed right under its row. */
  lemma InvoiceShowsDetails(d: Doc, f: Formatters, i: nat)
    requires d.items.Some? && i < |d.items.value| && Truthy(d.items.value[i].details)
    ensures var it := d.items.value[i];
      Shows(Invoice(d, f), StrLine(ItemRow(it, f)) + InvoiceDetailsLine(it))
  {
    InvoiceShowsItem(d, f, i);
    InvoiceItemLayout(d.items.value[i], f);
  }

  /** An invoice prints a `TOTAL:` line with the summary total, or 0 when that is falsy. */
  lemma InvoiceShowsTotal(d: Doc, f: Formatters)
    ensures var total := if Truthy(d.summaryTotal) then d.summaryTotal else Num(0);
      Shows(Invoice(d, f), StrLine(Lit("TOTAL: ") + f.currency(total)))
  {
    var foot := InvoiceFoot(d, f);
    assert foot[3] == TotalLine(d, f);
    ConcatShowsElement(foot, 3);
    LastSegmentsShow(INIT + ALIGN_CENTER, InvoiceHead(d, f) + [InvoiceItemBlock(d, f)], foot, FeedLines(3) + CUT, TotalLine(d, f));
  }

  /** Every segment of a concatenation occurs in it. */
  lemma {:induction false} ConcatShowsElement<T>(segs: seq<seq<T>>, i: nat)
    requires i < |segs|
    ensures Shows(Concat(segs), segs[i])
    decreases i
  {
    assert Concat(segs) == segs[0] + Concat(segs[1..]);
    if i == 0 {
      ShowsSelf(segs[0]);
      ShowsBefore(segs[0], Concat(segs[1..]), segs[0]);
    } else {
      ConcatShowsElement(segs[1..], i - 1);
      assert segs[1..][i - 1] == segs[i];
      ShowsAfter(segs[0], Concat(segs[1..]), segs[i]);
    }
  }

  /** A block of the trailing segments of a framed document occurs in the document. */
  lemma LastSegmentsShow<T>(head: seq<T>, pre: seq<seq<T>>, post: seq<seq<T>>, tail: seq<T>, x: seq<T>)
    requires Shows(Concat(post), x)
    ensures Shows(Framed(head, Concat(pre + post), tail), x)
  {
    ConcatAppend(pre, post);
    ShowsAfter(Concat(pre), Concat(post), x);
    BodyShows(head, Concat(pre + post), tail, x);
  }

  /** A block of the body of a framed document is a block of the document. */
  lemma BodyShows<T>(head: seq<T>, body: seq<T>, tail: seq<T>, x: seq<T>)
    requires Shows(body, x)
    ensures Shows(Framed(head, body, tail), x)
  {
    ShowsAfter(head, body, x);
    ShowsBefore(head + body, tail, x);
  }

  /** A kitchen ticket prints the lines of all its items, in order, as one block. */
  lemma KotShowsItems(d: Doc, f: Formatters)
    requires d.items.Some?
    ensures Shows(Kot(d, f), KotItems(d.items.value))
  {
    SegmentShows(INIT + ALIGN_CENTER, KotHead(d, f), KotItemBlock(d), [KotClosing(d)], FeedLines(3) + CUT);
  }

  /** The `${quantity} x ${productName}` line of an item. */
  function KotLine(it: Item): seq<Byte>
  {
    StrLine(ToStr(it.quantity) + Lit(" x ") + it.productName)
  }

  /** The bytes of one kitchen item hold its line, between BOLD_ON and BOLD_OFF. */
  lemma KotItemShowsLine(it: Item)
    ensures Shows(KotItem(it), KotLine(it))
  {
    var line := KotLine(it);
    ShowsSelf(line);
    ShowsAfter(BOLD_ON, line, line);
    ShowsBefore(BOLD_ON + line, BOLD_OFF, line);
    ShowsBefore(BOLD_ON + line + BOLD_OFF, When(Truthy(it.details), StrLine(Lit("   Details: ") + ToStr(it.details))), line);
  }

  /** The kitchen item block holds the bytes of every item. */
  lemma KotItemsShowItem(xs: seq<Item>, i: nat)
    requires i < |xs|
    ensures Shows(KotItems(xs), KotItem(xs[i]))
  {
    ConcatMapShows(xs, KotItem, i);
  }

  /** Every item of a kitchen ticket gets its bytes printed, whatever its position in the list. */
  lemma KotShowsItem(d: Doc, f: Formatters, i: nat)
    requires d.items.Some? && i < |d.items.value|
    ensures Shows(Kot(d, f), KotItem(d.items.value[i]))
  {
    KotItemsShowItem(d.items.value, i);
    KotShowsItems(d, f);
    ShowsTrans(Kot(d, f), KotItems(d.items.value), KotItem(d.items.value[i]));
  }

  /** Every item of a kitchen ticket gets its `${quantity} x ${productName}` line, in bold. */
  lemma KotShowsEachItem(d: Doc, f: Formatters, i: nat)
    requires d.items.Some? && i < |d.items.value|
    ensures Shows(Kot(d, f), KotLine(d.items.value[i]))
  {
    var it := d.items.value[i];
    KotShowsItem(d, f, i);
    KotItemShowsLine(it);
    ShowsTrans(Kot(d, f), KotItem(it), KotLine(it));
  }

  /** The line `   Details: ${details}` a kitchen ticket prints under an item. */
  function KotDetailsLine(it: Item): seq<Byte>
  {
    StrLine(Lit("   Details: ") + ToStr(it.details))
  }

  /**
   * A kitchen item is its line in bold, followed by a details line in normal
   * weight exactly when the details are truthy.
   */
  lemma KotItemLayout(it: Item)
    ensures Truthy(it.details) ==> KotItem(it) == BOLD_ON + KotLine(it) + BOLD_OFF + KotDetailsLine(it)
    ensures !Truthy(it.details) ==> KotItem(it) == BOLD_ON + KotLine(it) + BOLD_OFF
  {
  }

  /** An item with truthy details has its details line printed right after its bold line. */
  lemma KotShowsDetails(d: Doc, f: Formatters, i: nat)
    requires d.items.Some? && i < |d.items.value| && Truthy(d.items.value[i].details)
    ensures var it := d.items.value[i];
      Shows(Kot(d, f), BOLD_ON + KotLine(it) + BOLD_OFF + KotDetailsLine(it))
  {
    KotShowsItem(d, f, i);
    KotItemLayout(d.items.value[i]);
  }

  /** Truthy special notes are printed in bold under a `NOTES:` heading after the closing rule. */
  lemma KotShowsNotes(d: Doc, f: Formatters)
    requires Truthy(d.specialNotes)
    ensures Shows(Kot(d, f), StrLine(Rule()) + NotesBlock(d))
  {
    assert KotSegments(d, f) == (KotHead(d, f) + [KotItemBlock(d)]) + [KotClosing(d)] + [];
    SegmentShows(INIT + ALIGN_CENTER, KotHead(d, f) + [KotItemBlock(d)], KotClosing(d), [], FeedLines(3) + CUT);
  }

  // ---------------------------------------------------------------------------
  // The kitchen ticket ignores money

  /** Two item lists that agree on everything a kitchen ticket shows. */
  predicate SameKitchenItems(a: seq<Item>, b: seq<Item>)
  {
    |a| == |b|
    && forall i :: 0 <= i < |a| ==>
      a[i].productName == b[i].productName && a[i].quantity == b[i].quantity && a[i].details == b[i].details
  }

  lemma KotItemsIgnorePrices(a: seq<Item>, b: seq<Item>)
    requires SameKitchenItems(a, b)
    ensures KotItems(a) == KotItems(b)
  {
    forall i | 0 <= i < |a|
      ensures KotItem(a[i]) == KotItem(b[i])
    {
    }
    ConcatMapPointwise(a, b, KotItem);
  }

  /**
   * A kitchen order ticket does not depend on prices, totals, the business
   * or customer details, nor on how amounts are formatted: only the date,
   * table, guests, notes and each item's name, quantity and details.
   */
  lemma KotIgnoresPrices(d: Doc, e: Doc, f: Formatters, g: Formatters)
    requires d.date == e.date && d.tableNumber == e.tableNumber && d.guestNumber == e.guestNumber
    requires d.specialNotes == e.specialNotes && d.items.Some? == e.items.Some?
    requires d.items.Some? ==> SameKitchenItems(d.items.value, e.items.value)
    requires f.localeDate == g.localeDate
    ensures Kot(d, f) == Kot(e, g)
  {
    if d.items.Some? {
      KotItemsIgnorePrices(d.items.value, e.items.value);
    }
    assert KotSegments(d, f) == KotSegments(e, g);
  }

  // ---------------------------------------------------------------------------
  // TSPL label

  /** Without a label size the label is 35 mm by 18 mm. */
  lemma TsplDefaultSize(d: Doc)
    requires !Truthy(d.labelWidth) && !Truthy(d.labelHeight)
    ensures TsplLines(d)[0] == Lit("SIZE 35 mm, 18 mm")
    ensures IsPrefix(Lit("SIZE 35 mm, 18 mm\r\n"), TsplScript(d))
  {
    assert Lit("SIZE ") + Lit("35") + Lit(" mm, ") + Lit("18") + Lit(" mm") == Lit("SIZE 35 mm, 18 mm");
    assert Lit("SIZE 35 mm, 18 mm") + CRLF == Lit("SIZE 35 mm, 18 mm\r\n");
  }

  /** One line is joined into that line and CRLF. */
  lemma CrlfJoinOne(l: Str)
    ensures CrlfJoin([l]) == l + CRLF
  {
    assert [l][1..] == [];
  }

  /** Joining two runs of lines is joining each and concatenating, in order. */
  lemma {:induction false} CrlfJoinAppend(a: seq<Str>, b: seq<Str>)
    ensures CrlfJoin(a + b) == CrlfJoin(a) + CrlfJoin(b)
  {
    if |a| > 0 {
      assert (a + b)[0] == a[0];
      assert (a + b)[1..] == a[1..] + b;
      CrlfJoinAppend(a[1..], b);
    } else {
      assert a + b == b;
    }
  }

  /** Every line, followed by CRLF, is a block of the joined text. */
  lemma CrlfJoinShowsLine(lines: seq<Str>, i: nat)
    requires i < |lines|
    ensures Shows(CrlfJoin(lines), lines[i] + CRLF)
  {
    var x, pre, post := lines[i] + CRLF, lines[..i], lines[i..];
    assert lines == pre + post;
    CrlfJoinAppend(pre, post);
    assert post[0] == lines[i];
    var rest := CrlfJoin(post[1..]);
    assert CrlfJoin(post) == x + rest;
    ShowsSelf(x);
    ShowsBefore(x, rest, x);
    ShowsAfter(CrlfJoin(pre), x + rest, x);
  }

  /** Each of the label's command lines, followed by CRLF, occurs in the TSPL script. */
  lemma TsplShowsLines(d: Doc)
    ensures forall i :: 0 <= i < |TsplLines(d)| ==> Shows(TsplScript(d), TsplLines(d)[i] + CRLF)
  {
    forall i | 0 <= i < |TsplLines(d)|
      ensures Shows(TsplScript(d), TsplLines(d)[i] + CRLF)
    {
      CrlfJoinShowsLine(TsplLines(d), i);
    }
  }

  /**
   * The top text line carries at most 25 units of the joined brand,
   * category and model, and that text is empty exactly when all three are
   * falsy.
   */
  lemma TsplTopText(d: Doc)
    ensures |Substring(TopText(d), 0, 25)| <= 25
    ensures TopText(d) == [] <==> !Truthy(d.brandName) && !Truthy(d.categoryName) && !Truthy(d.modelNo)
  {
    TopTextEmpty(d);
    SubstringPrefix(TopText(d), 25);
  }

  /** The top text is empty exactly when none of its three parts is truthy. */
  lemma TopTextEmpty(d: Doc)
    ensures TopText(d) == [] <==> !Truthy(d.brandName) && !Truthy(d.categoryName) && !Truthy(d.modelNo)
  {
    var vs := [d.brandName, d.categoryName, d.modelNo];
    JoinTruthyEmpty(vs, Lit(" / "));
    assert (forall i :: 0 <= i < |vs| ==> !Truthy(vs[i]))
       <==> !Truthy(vs[0]) && !Truthy(vs[1]) && !Truthy(vs[2]);
  }

  // ---------------------------------------------------------------------------
  // Dispatch

  /**
   * The dispatcher's output holds only byte values unless the tag is
   * `BARCODE` and the SKU is longer than 255 units.
   */
  lemma FormatAllBytes(tag: Option<Str>, d: Doc, f: Formatters)
    ensures AllBytes(FormatDataForPrinter(tag, d, f)) <==> !(tag == Some(BARCODE_TAG) && SkuTooLong(d))
  {
    if tag == Some(BARCODE_TAG) {
      BarcodeAllBytes(d, f);
    }
  }
}

=== FILE: printer_service.dfy ===
/**
 * The printer byte-code compiler of utils/PrinterService.js: the ESC/POS
 * command constants, `stringToBytes`, the append-only `CommandBuilder`, the
 * four document compilers (invoice, kitchen order ticket, barcode tag, TSPL
 * label) and the `formatDataForPrinter` dispatcher.
 *
 * Buffers hold JavaScript numbers; every value the compilers push is a
 * non-negative integer, most of them bytes (the barcode length byte is the
 * one exception, see `BarcodeTag`).
 */
module PrinterService {
  import opened Wrappers
  import opened JsString

  const ESC: Byte := 0x1B
  const GS: Byte := 0x1D
  const LF: Byte := 0x0A

  const INIT: seq<Byte> := [ESC, 0x40]
  const ALIGN_LEFT: seq<Byte> := [ESC, 0x61, 0x00]
  const ALIGN_CENTER: seq<Byte> := [ESC, 0x61, 0x01]
  const ALIGN_RIGHT: seq<Byte> := [ESC, 0x61, 0x02]
  const BOLD_ON: seq<Byte> := [ESC, 0x45, 0x01]
  const BOLD_OFF: seq<Byte> := [ESC, 0x45, 0x00]
  const TEXT_NORMAL: seq<Byte> := [GS, 0x21, 0x00]
  const TEXT_DOUBLE_HEIGHT: seq<Byte> := [GS, 0x21, 0x10]
  const TEXT_DOUBLE_WIDTH: seq<Byte> := [GS, 0x21, 0x20]
  const TEXT_DOUBLE_SIZE: seq<Byte> := [GS, 0x21, 0x30]
  const CUT: seq<Byte> := [GS, 0x56, 0x41, 0x10]

  /** `PrinterCommands.FEED_LINES(n)`. */
  function FeedLines(n: Byte): seq<Byte>
  {
    [ESC, 0x64, n]
  }

  predicate IsPrefix<T(==)>(p: seq<T>, s: seq<T>)
  {
    |p| <= |s| && s[..|p|] == p
  }

  predicate IsSuffix<T(==)>(q: seq<T>, s: seq<T>)
  {
    |q| <= |s| && s[|s| - |q|..] == q
  }

  /** A document: an opening sequence, a body and a closing sequence. */
  function Framed<T>(head: seq<T>, body: seq<T>, tail: seq<T>): (r: seq<T>)
    ensures IsPrefix(head, r) && IsSuffix(tail, r)
    ensures |r| == |head| + |body| + |tail| && r[|head|..|head| + |body|] == body
  {
    head + body + tail
  }

  // ---------------------------------------------------------------------------
  // stringToBytes

  /**
   * `stringToBytes`: one value per code unit, the unit itself when it fits in
   * a byte and `?` (0x3F) otherwise.
   */
  function StringToBytes(s: Str): (r: seq<Byte>)
    ensures |r| == |s|
    ensures forall i :: 0 <= i < |s| ==> r[i] == (if s[i] > 0xFF then 0x3F else s[i])
  {
    if |s| == 0 then []
    else
      var last := s[|s| - 1];
      StringToBytes(s[..|s| - 1]) + [if last > 0xFF then 0x3F else last]
  }

  /** Reading `v.length` does not throw: `v` is neither `null` nor `undefined`. */
  predicate HasLength(v: JsValue)
  {
    !v.Null? && !v.Undefined?
  }

  /**
   * `stringToBytes` applied to an arbitrary value. On `null` and `undefined`
   * reading `str.length` throws, so callers must not pass them; a boolean or
   * a number has no `length`, so the loop body never runs.
   */
  function ValueToBytes(v: JsValue): (r: seq<Byte>)
    requires HasLength(v)
    ensures v.JsStr? ==> r == StringToBytes(v.s)
    ensures !v.JsStr? ==> r == []
  {
    match v
    case JsStr(s) => StringToBytes(s)
    case _ => []
  }

  // ---------------------------------------------------------------------------
  // CommandBuilder: a buffer that is only ever appended to. The compilers
  // below are written as the concatenation of the segments their builder
  // calls append, in call order.

  type Buffer = seq<int>

  /** What `textLine(v)` appends: `stringToBytes(v)` and a line feed. */
  function ValueLine(v: JsValue): (r: seq<Byte>)
    requires HasLength(v)
    ensures |r| == |ValueToBytes(v)| + 1 && r[|r| - 1] == LF
  {
    ValueToBytes(v) + [LF]
  }

  /** What `textLine(s)` appends for a string `s` (a literal or a template). */
  function StrLine(s: Str): (r: seq<Byte>)
    ensures |r| == |s| + 1 && r[|s|] == LF
  {
    StringToBytes(s) + [LF]
  }

  /** The buffer after appending each segment in turn to an empty builder. */
  function Concat<T>(segs: seq<seq<T>>): (r: seq<T>)
  {
    if |segs| == 0 then [] else segs[0] + Concat(segs[1..])
  }

  /** The bytes `g` gives for each element, one element after another (`forEach` with a builder). */
  function ConcatMap<A, T>(xs: seq<A>, g: A -> seq<T>): seq<T>
  {
    if |xs| == 0 then [] else g(xs[0]) + ConcatMap(xs[1..], g)
  }

  /** A segment emitted only under a condition (`if (c) builder...`). */
  function When<T>(c: bool, bytes: seq<T>): seq<T>
  {
    if c then bytes else []
  }

  /** `add(array)`: pushes the array's elements in order. */
  function Add(b: Buffer, cmds: seq<int>): (r: Buffer)
    ensures IsPrefix(b, r) && r[|b|..] == cmds
  {
    b + cmds
  }

  /** `add(value)` with a value that is not an array: pushes that one value. */
  function AddOne(b: Buffer, x: int): (r: Buffer)
    ensures IsPrefix(b, r) && r[|b|..] == [x]
  {
    b + [x]
  }

  /** `text(str)`: pushes `stringToBytes(str)`. */
  function Text(b: Buffer, v: JsValue): (r: Buffer)
    requires HasLength(v)
    ensures IsPrefix(b, r) && r[|b|..] == ValueToBytes(v)
  {
    b + ValueToBytes(v)
  }

  /** `textLine(str)`: `text(str)` followed by one line feed. */
  function TextLine(b: Buffer, v: JsValue): (r: Buffer)
    requires HasLength(v)
    ensures IsPrefix(b, r) && |r| == |b| + |ValueToBytes(v)| + 1 && r[|r| - 1] == LF
    ensures r[|b|..|r| - 1] == ValueToBytes(v)
  {
    b + ValueLine(v)
  }

  /** `newLine()`: pushes exactly one line feed. */
  function NewLine(b: Buffer): (r: Buffer)
    ensures IsPrefix(b, r) && r[|b|..] == [LF]
  {
    b + [LF]
  }

  /** `new CommandBuilder()` followed by `add` of each segment in turn, then `getData()`. */
  function Build(segs: seq<seq<int>>): Buffer
  {
    if |segs| == 0 then [] else Add(Build(segs[..|segs| - 1]), segs[|segs| - 1])
  }

  // ---------------------------------------------------------------------------
  // Document data

  /** One line item of an order. */
  datatype Item = Item(
    productName: Str,
    quantity: JsValue,
    subtotal: JsValue,
    price: JsValue,
    details: JsValue)

  /**
   * The `data` object every compiler receives. Nested optional objects are
   * flattened: `businessInfo?.name` is `businessName`, `customer?.name` is
   * `customerName`, `summary?.total` is `summaryTotal`, `labelSize?.widthMm`
   * is `labelWidth`; an absent parent object reads as `Undefined`.
   */
  datatype Doc = Doc(
    businessName: JsValue,
    businessAddress: JsValue,
    businessPhone: JsValue,
    invoiceNumber: JsValue,
    date: JsValue,
    tableNumber: JsValue,
    guestNumber: JsValue,
    customerName: JsValue,
    specialNotes: JsValue,
    items: Option<seq<Item>>,
    summaryTotal: JsValue,
    brandName: JsValue,
    categoryName: JsValue,
    modelNo: JsValue,
    shopName: JsValue,
    sku: JsValue,
    price: JsValue,
    labelWidth: JsValue,
    labelHeight: JsValue)

  /**
   * The locale- and floating-point-dependent helpers the compilers call:
   * `formatCurrency(amount)` (`parseFloat(amount).toFixed(2)`) and
   * `new Date(date).toLocaleString()`.
   */
  datatype Formatters = Formatters(currency: JsValue -> Str, localeDate: JsValue -> Str)

  /** `"-".repeat(32)`, the separator rule of the 32-column paper. */
  function Rule(): Str
  {
    Repeat(Lit("-"), 32)
  }

  // ---------------------------------------------------------------------------
  // Invoice

  /** The name column of an item row: the name cut to 16 units, padded with spaces to 16. */
  function NameColumn(name: Str): Str
  {
    PadEnd(Substring(name, 0, 16), 16, SPACE)
  }

  /** The row template `${name} ${qty} ${total}` of the invoice item lines. */
  function ItemColumns(name: Str, qty: Str, total: Str): Str
  {
    NameColumn(name) + [SPACE] + PadStart(qty, 3, SPACE) + [SPACE] + PadStart(total, 10, SPACE)
  }

  /**
   * The text of one invoice item row: the product name, `String(quantity)`
   * and the formatted line total laid out in their columns.
   */
  function ItemRow(it: Item, f: Formatters): Str
  {
    ItemColumns(it.productName, ToStr(it.quantity), f.currency(it.subtotal))
  }

  /** The bytes one item adds to an invoice: its row, then `  ${details}` when `details` is truthy. */
  function InvoiceItem(it: Item, f: Formatters): seq<Byte>
  {
    StrLine(ItemRow(it, f)) + When(Truthy(it.details), StrLine(Lit("  ") + ToStr(it.details)))
  }

  /** `data.items.forEach(...)` in the invoice compiler. */
  function InvoiceItems(items: seq<Item>, f: Formatters): seq<Byte>
  {
    ConcatMap(items, InvoiceItemWith(f))
  }

  /** `InvoiceItem` with the formatters fixed. */
  function InvoiceItemWith(f: Formatters): Item -> seq<Byte>
  {
    it => InvoiceItem(it, f)
  }

  /** The item block of an invoice: nothing when `data.items` is absent. */
  function InvoiceItemBlock(d: Doc, f: Formatters): seq<Byte>
  {
    if d.items.Some? then InvoiceItems(d.items.value, f) else []
  }

  /** The invoice from the business block to the column headings (PrinterService.js lines 80-111). */
  function InvoiceHead(d: Doc, f: Formatters): (r: seq<seq<Byte>>)
    ensures |r| == 17
  {
    var inv := if Truthy(d.invoiceNumber) then ToStr(d.invoiceNumber) else Lit("N/A");
    [ if Truthy(d.businessName) then BOLD_ON + TEXT_DOUBLE_SIZE + ValueLine(d.businessName) + TEXT_NORMAL + BOLD_OFF else [],
      if Truthy(d.businessAddress) then ValueLine(d.businessAddress) else [],
      When(Truthy(d.businessPhone), StrLine(Lit("Tel: ") + ToStr(d.businessPhone))),
      StrLine(Rule()), BOLD_ON, StrLine(Lit("INVOICE")), BOLD_OFF, ALIGN_LEFT,
      StrLine(Lit("Inv #: ") + inv),
      StrLine(Lit("Date: ") + f.localeDate(d.date)),
      When(Truthy(d.tableNumber), StrLine(Lit("Table: ") + ToStr(d.tableNumber))),
      When(Truthy(d.customerName), StrLine(Lit("Cust: ") + ToStr(d.customerName))),
      StrLine(Rule()), BOLD_ON, StrLine(Lit("Item            Qty    Total")), BOLD_OFF, StrLine(Rule()) ]
  }

  /** `TOTAL: ${formatCurrency(data.summary?.total || 0)}` as a line. */
  function TotalLine(d: Doc, f: Formatters): seq<Byte>
  {
    StrLine(Lit("TOTAL: ") + f.currency(if Truthy(d.summaryTotal) then d.summaryTotal else Num(0)))
  }

  /** The closing rule, the right-aligned bold total and the centred thanks (PrinterService.js lines 126-134). */
  function InvoiceFoot(d: Doc, f: Formatters): (r: seq<seq<Byte>>)
    ensures |r| == 8
  {
    TOTAL_OPEN + [TotalLine(d, f)] + INVOICE_CLOSE
  }

  const TOTAL_OPEN: seq<seq<Byte>> := [StrLine(Rule()), ALIGN_RIGHT, BOLD_ON]
  const INVOICE_CLOSE: seq<seq<Byte>> := [BOLD_OFF, ALIGN_CENTER, [LF], StrLine(Lit("Thank You!"))]

  /**
   * What the invoice compiler appends between the opening INIT/ALIGN_CENTER
   * and the closing feed and cut, one segment per builder call or guarded
   * group of calls: the head, the item block, then the total and footer.
   */
  function InvoiceSegments(d: Doc, f: Formatters): (r: seq<seq<Byte>>)
    ensures |r| == 26
  {
    InvoiceHead(d, f) + [InvoiceItemBlock(d, f)] + InvoiceFoot(d, f)
  }

  /**
   * `generateInvoiceCommands`: starts with INIT then ALIGN_CENTER and ends
   * with a three-line feed then CUT.
   */
  function Invoice(d: Doc, f: Formatters): (r: seq<Byte>)
    ensures IsPrefix(INIT + ALIGN_CENTER, r)
    ensures IsSuffix(FeedLines(3) + CUT, r)
  {
    Framed(INIT + ALIGN_CENTER, Concat(InvoiceSegments(d, f)), FeedLines(3) + CUT)
  }

  // ---------------------------------------------------------------------------
  // Kitchen order ticket

  /** The bytes one item adds to a kitchen ticket: `${quantity} x ${productName}` in bold, then details. */
  function KotItem(it: Item): seq<Byte>
  {
    BOLD_ON + StrLine(ToStr(it.quantity) + Lit(" x ") + it.productName) + BOLD_OFF
    + When(Truthy(it.details), StrLine(Lit("   Details: ") + ToStr(it.details)))
  }

  /** `data.items.forEach(...)` in the kitchen ticket compiler. */
  function KotItems(items: seq<Item>): seq<Byte>
  {
    ConcatMap(items, KotItem)
  }

  /** The item block of a kitchen ticket: nothing when `data.items` is absent. */
  function KotItemBlock(d: Doc): seq<Byte>
  {
    if d.items.Some? then KotItems(d.items.value) else []
  }

  /** The bold `NOTES:` heading and the special notes. */
  function NotesBlock(d: Doc): seq<Byte>
    requires Truthy(d.specialNotes)
  {
    BOLD_ON + StrLine(Lit("NOTES:")) + ValueLine(d.specialNotes) + BOLD_OFF
  }

  /** The closing rule of a kitchen ticket, followed by the notes block when `specialNotes` is truthy. */
  function KotClosing(d: Doc): seq<Byte>
  {
    StrLine(Rule()) + (if Truthy(d.specialNotes) then NotesBlock(d) else [])
  }

  /** The kitchen ticket from its title to the column headings (PrinterService.js lines 145-165). */
  function KotHead(d: Doc, f: Formatters): (r: seq<seq<Byte>>)
    ensures |r| == 15
  {
    [ BOLD_ON, TEXT_DOUBLE_SIZE, StrLine(Lit("KOT")), TEXT_NORMAL, StrLine(Lit("Kitchen Order Ticket")), BOLD_OFF,
      ALIGN_LEFT, StrLine(Lit("Date: ") + f.localeDate(d.date)),
      When(Truthy(d.tableNumber), BOLD_ON + StrLine(Lit("Table: ") + ToStr(d.tableNumber)) + BOLD_OFF),
      When(Truthy(d.guestNumber), StrLine(Lit("Guests: ") + ToStr(d.guestNumber))),
      StrLine(Rule()), BOLD_ON, StrLine(Lit("Qty  Item")), BOLD_OFF, StrLine(Rule()) ]
  }

  /** What the kitchen ticket compiler appends between its opening and closing commands. */
  function KotSegments(d: Doc, f: Formatters): (r: seq<seq<Byte>>)
    ensures |r| == 17
  {
    KotHead(d, f) + [KotItemBlock(d)] + [KotClosing(d)]
  }

  /**
   * `generateKOTCommands`: starts with INIT then ALIGN_CENTER and ends with
   * a three-line feed then CUT.
   */
  function Kot(d: Doc, f: Formatters): (r: seq<Byte>)
    ensures IsPrefix(INIT + ALIGN_CENTER, r)
    ensures IsSuffix(FeedLines(3) + CUT, r)
  {
    Framed(INIT + ALIGN_CENTER, Concat(KotSegments(d, f)), FeedLines(3) + CUT)
  }

  // ---------------------------------------------------------------------------
  // Barcode tag (ESC/POS, Code 128)

  /** `[brandName, categoryName].filter(Boolean).join(' / ')`. */
  function BarcodeHeader(d: Doc): Str
  {
    JoinTruthy([d.brandName, d.categoryName], Lit(" / "))
  }

  /** Height 80, module width 2, human-readable text below the bars. */
  const BARCODE_SETUP: seq<Byte> := [GS, 0x68, 80] + [GS, 0x77, 2] + [GS, 0x48, 2]

  /** `GS k 73 n`: print a Code 128 barcode of the `n` bytes that follow. */
  function BarcodeCommand(n: int): seq<int>
  {
    [GS, 0x6B, 73, n]
  }

  /**
   * The barcode block: a line feed, the setup commands, then `GS k 73 n`
   * followed by the `n` bytes of the SKU, where `n` is the raw length of
   * those bytes, then a line feed.
   */
  function BarcodeBlock(data: seq<Byte>): seq<int>
  {
    [LF] + BARCODE_SETUP + BarcodeCommand(|data|) + data + [LF]
  }

  /** What the barcode compiler appends between its opening and closing commands. */
  function BarcodeSegments(d: Doc, f: Formatters): (r: seq<seq<int>>)
    ensures |r| == 4
  {
    var header := BarcodeHeader(d);
    [ When(|header| > 0, StrLine(Substring(header, 0, 32))),
      if Truthy(d.shopName) then BOLD_ON + ValueLine(d.shopName) + BOLD_OFF else [],
      if Truthy(d.sku) then BarcodeBlock(ValueToBytes(d.sku)) else [],
      When(Truthy(d.price), BOLD_ON + StrLine(Lit("Price: ") + f.currency(d.price)) + BOLD_OFF) ]
  }

  /**
   * `generateBarcodeCommands`: starts with INIT then ALIGN_CENTER and ends
   * with a three-line feed; no cut command follows.
   */
  function BarcodeTag(d: Doc, f: Formatters): (r: seq<int>)
    ensures IsPrefix(INIT + ALIGN_CENTER, r)
    ensures IsSuffix(FeedLines(3), r)
  {
    Framed(INIT + ALIGN_CENTER, Concat(BarcodeSegments(d, f)), FeedLines(3))
  }

  // ---------------------------------------------------------------------------
  // TSPL label

  const CRLF: Str := Lit("\r\n")

  /** `data.labelSize?.widthMm || 35` and the height counterpart, as text. */
  function LabelWidth(d: Doc): Str
  {
    if Truthy(d.labelWidth) then ToStr(d.labelWidth) else Lit("35")
  }

  function LabelHeight(d: Doc): Str
  {
    if Truthy(d.labelHeight) then ToStr(d.labelHeight) else Lit("18")
  }

  /** `[brandName, categoryName, modelNo].filter(Boolean).join(' / ')`. */
  function TopText(d: Doc): Str
  {
    JoinTruthy([d.brandName, d.categoryName, d.modelNo], Lit(" / "))
  }

  /** The lines of the TSPL script, each of which the script ends with CRLF. */
  function TsplLines(d: Doc): (r: seq<Str>)
    ensures |r| == 8
  {
    [ Lit("SIZE ") + LabelWidth(d) + Lit(" mm, ") + LabelHeight(d) + Lit(" mm"),
      Lit("GAP 2 mm, 0"),
      Lit("DIRECTION 1"),
      Lit("CLS"),
      Lit("TEXT 140,15,\"0\",0,1,1,3,\"") + Substring(TopText(d), 0, 25) + Lit("\""),
      Lit("TEXT 140,40,\"0\",0,1,1,3,\"SHOP: ") + (if Truthy(d.shopName) then ToStr(d.shopName) else []) + Lit("\""),
      Lit("BARCODE 40,70,\"128\",50,1,0,2,2,\"") + ToStr(d.sku) + Lit("\""),
      Lit("PRINT 1") ]
  }

  /** Each line followed by CRLF, concatenated. */
  function CrlfJoin(lines: seq<Str>): (r: Str)
    ensures |lines| > 0 ==> IsPrefix(lines[0] + CRLF, r)
    ensures |lines| > 0 ==> IsSuffix(lines[|lines| - 1] + CRLF, r)
  {
    if |lines| == 0 then [] else lines[0] + CRLF + CrlfJoin(lines[1..])
  }

  /**
   * The TSPL command script `generateTSPLCommands` builds: it opens with the
   * SIZE line and closes with `PRINT 1` and CRLF.
   */
  function TsplScript(d: Doc): (r: Str)
    ensures IsPrefix(TsplLines(d)[0] + CRLF, r)
    ensures IsSuffix(Lit("PRINT 1\r\n"), r)
  {
    CrlfJoin(TsplLines(d))
  }

  /** `generateTSPLCommands`: `stringToBytes` of the script; every value a byte. */
  function Tspl(d: Doc): (r: seq<Byte>)
    ensures |r| == |TsplScript(d)| > 0
  {
    StringToBytes(TsplScript(d))
  }

  // ---------------------------------------------------------------------------
  // Dispatch

  const INVOICE_TAG: Str := Lit("INVOICE")
  const KOT_TAG: Str := Lit("KOT")
  const BARCODE_TAG: Str := Lit("BARCODE")
  const LABEL_TAG: Str := Lit("BARCODE_LABEL")

  /** The four print types are different strings. */
  lemma TagsDistinct()
    ensures INVOICE_TAG != KOT_TAG && INVOICE_TAG != BARCODE_TAG && INVOICE_TAG != LABEL_TAG
    ensures KOT_TAG != BARCODE_TAG && KOT_TAG != LABEL_TAG && BARCODE_TAG != LABEL_TAG
  {
    assert |INVOICE_TAG| == 7 && |KOT_TAG| == 3 && |BARCODE_TAG| == 7 && |LABEL_TAG| == 13;
    assert INVOICE_TAG[0] != BARCODE_TAG[0];
  }

  /** Each compiler emits at least its opening commands. */
  lemma CompilersNonEmpty(d: Doc, f: Formatters)
    ensures |Invoice(d, f)| > 0 && |Kot(d, f)| > 0 && |BarcodeTag(d, f)| > 0 && |Tspl(d)| > 0
  {
    FramedNonEmpty(INIT + ALIGN_CENTER, Concat(InvoiceSegments(d, f)), FeedLines(3) + CUT);
    FramedNonEmpty(INIT + ALIGN_CENTER, Concat(KotSegments(d, f)), FeedLines(3) + CUT);
    FramedNonEmpty(INIT + ALIGN_CENTER, Concat(BarcodeSegments(d, f)), FeedLines(3));
  }

  /** A framed document is never shorter than its head. */
  lemma FramedNonEmpty<T>(head: seq<T>, body: seq<T>, tail: seq<T>)
    requires |head| > 0
    ensures |Framed(head, body, tail)| > 0
  {
  }

  predicate KnownTag(tag: Option<Str>)
  {
    tag == Some(INVOICE_TAG) || tag == Some(KOT_TAG) || tag == Some(BARCODE_TAG) || tag == Some(LABEL_TAG)
  }

  /**
   * `formatDataForPrinter`: the output of the compiler the tag names; the
   * result is empty exactly when the tag (possibly `null`) is none of the
   * four, since every compiler emits at least its opening commands.
   */
  function FormatDataForPrinter(tag: Option<Str>, d: Doc, f: Formatters): (r: seq<int>)
    ensures r == [] <==> !KnownTag(tag)
    ensures tag == Some(INVOICE_TAG) ==> r == Invoice(d, f)
    ensures tag == Some(KOT_TAG) ==> r == Kot(d, f)
    ensures tag == Some(BARCODE_TAG) ==> r == BarcodeTag(d, f)
    ensures tag == Some(LABEL_TAG) ==> r == Tspl(d)
  {
    TagsDistinct();
    CompilersNonEmpty(d, f);
    if tag == Some(INVOICE_TAG) then Invoice(d, f)
    else if tag == Some(KOT_TAG) then Kot(d, f)
    else if tag == Some(BARCODE_TAG) then BarcodeTag(d, f)
    else if tag == Some(LABEL_TAG) then Tspl(d)
    else []
  }
}

=== FILE: wrappers.dfy ===
/** Optional values and success/failure results shared by every module. */
module Wrappers {

  /** A value that may be absent (a JavaScript `null`/`undefined`, a Kotlin `null`). */
  datatype Option<+T> = None | Some(value: T)

  /** The outcome of an operation that either produces a value or throws. */
  datatype Result<+T, +E> = Success(value: T) | Failure(error: E)
}
